=== FILE: README.md ===
# AddExif core, modelled in Dafny

AddExif is a small Windows desktop tool. It writes metadata into image files.

- The operator picks a CSV manifest, then a folder.
- The view model (`ShellViewModel`) loads one entry per manifest row. A row is marked `PENDING` when an eligible `.png`/`.jpg` file of that name is in the folder. Otherwise it is marked `ERROR - NOT FOUND IN CSV`. The wording is the program's own, even though it is the folder that lacks the file.
- A run then hands every pending entry, in order, to `exiftool.exe`. It builds one argument string per entry. Each entry ends up `SUCCESS`, or `ERROR - <message>` when an exception was raised.
- A log collects a `Processing "<path>"` line and the tool's output for every processed entry.

This project models that pipeline as pure functions and proves its properties:

| module | file | models |
|---|---|---|
| `Results` | results.dfy | `Option` and `Result`, for reader and enumeration errors |
| `Text` | text.dfy | the string operations the view model calls: ASCII `ToLower`, `StartsWith`/`EndsWith`, `Trim` with .NET's white-space set, `Split` on one character |
| `Paths` | paths.dfy | `Path.GetFileName` and `Path.Combine` for Windows paths |
| `Images` | images.dfy | the `ImageInfo` record, split into its ten manifest columns (`Metadata`) and `Status`, plus the status constants |
| `Matcher` | matcher.dfy | `ReadImages`: the eligible-file filter, match keys, statuses, and load errors |
| `CommandLine` | command_line.dfy | how a started process splits its argument string (quotes and blanks) |
| `Tagging` | tagging.dfy | the keyword list and the argument string of `UpdateMeta` |
| `Batch` | batch.dfy | the loop of `DoRun` with `UpdateMeta`: statuses and log, with the external tool as an oracle |
| `Shell` | shell.dfy | the view model's state: `ChooseFolder` with the load, `CanRun`, `DoRun` |

Inputs that come from outside the program are parameters:

- The CSV reader's output is a `Matcher.ManifestRead`. It holds the rows bound before the reader stopped, and the message of the exception that stopped it, if any. A manifest that cannot be opened is an `Err`.
- The folder listing is a `Result<seq<string>>` of full paths.
- The external tool is a `Batch.Tool`. It is a function from the invocation's position within the run and the `Batch.Call` (record and target path) to an outcome:
  - `Exited(output)`: the output was read and the process exited.
  - `Failed(message)`: an exception was raised before any output was logged, for example because the process could not be started.
  - `FailedAfterOutput(output, message)`: the output was logged, then waiting for the process raised an exception.

  The tool is started with the argument string `Batch.ArgumentString(call)`. A tool that sees only that string is `Batch.OnArguments(t)`. Every property proved for all tools holds for those.

How a load behaves follows the code. The store is cleared before the manifest is read (ShellViewModel.cs:127). Each row is added as soon as it is read (ShellViewModel.cs:136-150). So a reader that fails part-way leaves the rows before the failure in the grid, and the error is shown in a dialog. A manifest that cannot be opened, or a folder that cannot be enumerated, leaves the grid empty. In neither case is the earlier store kept.

## Model

| member | source | states |
|---|---|---|
| `Text.Lower` | AddExif/ViewModels/ShellViewModel.cs:133-138 | `ToLower` keeps the length and folds each character on its own, so names equal up to letter case get the same key |
| `Text.Split` | AddExif/ViewModels/ShellViewModel.cs:180 | `Split(',')` gives one piece more than there are commas; empty pieces are kept; no piece contains a comma; every character of a piece is from the input |
| `Text.SplitJoin` | AddExif/ViewModels/ShellViewModel.cs:180 | splitting loses nothing: joining the pieces with the separator gives back the input |
| `Text.JoinSplit` | AddExif/ViewModels/ShellViewModel.cs:180 | conversely, separator-free pieces that are joined and split again come back unchanged, so the pieces are uniquely determined |
| `Text.Trim` | AddExif/ViewModels/ShellViewModel.cs:180 | a trimmed keyword neither starts nor ends with a white-space character, and holds only characters of the piece |
| `Text.TrimIsSlice` | AddExif/ViewModels/ShellViewModel.cs:180 | the trim is a slice of the piece with only white space cut away on either side |
| `Text.TrimIdempotent` | AddExif/ViewModels/ShellViewModel.cs:180 | trimming a trimmed keyword changes nothing |
| `Tagging.TagList` | AddExif/ViewModels/ShellViewModel.cs:180 | the keywords of the tags column: its comma-separated pieces, each trimmed; what they are is stated by the three rows below |
| `Tagging.TagListSplitsOnCommas` | AddExif/ViewModels/ShellViewModel.cs:180 | the tags column yields one keyword per comma plus one; the keywords are the trims, in order, of comma-free pieces that join back into the column |
| `Tagging.TagListOfPieces` | AddExif/ViewModels/ShellViewModel.cs:180 | for any comma-free pieces that join into the column, the keywords are exactly their trims in order (`a, b ,c` gives `a`, `b`, `c`; `a,,b` gives an empty middle keyword) |
| `Tagging.TagListExample` | AddExif/ViewModels/ShellViewModel.cs:180 | the column `a, b ,c` gives the keywords `a`, `b`, `c` |
| `Tagging.TagListEmptyExample` | AddExif/ViewModels/ShellViewModel.cs:180 | the column `a,,b` gives the keywords `a`, an empty keyword, `b` |
| `Tagging.TagListChars` | AddExif/ViewModels/ShellViewModel.cs:180 | every character of a keyword comes from the tags column |
| `Tagging.KeywordOptions` | AddExif/ViewModels/ShellViewModel.cs:181-185 | the keyword block: one `-keywords="t" ` per keyword, in keyword order; how the tool reads it is the next row |
| `Tagging.ScanKeywordOptions` | AddExif/ViewModels/ShellViewModel.cs:181-185 | for keywords that hold no quote and do not end in a backslash, the keyword block, one `-keywords="t" ` per keyword, is read by the started process as one `-keywords=t` argument per keyword, in order |
| `Tagging.BuildArguments` | AddExif/ViewModels/ShellViewModel.cs:187-190 | the argument string: the record's fields, the keyword block and the quoted target path put into the fixed template, without escaping; what the tool receives from it is the next row |
| `Tagging.ArgumentsAsReceived` | AddExif/ViewModels/ShellViewModel.cs:187-190 | for values without quotes (and without blanks where unquoted), the tool receives exactly: title, comment, the keywords, author, subject, rating, latitude, longitude, and last the target path |
| `Paths.BaseName` | AddExif/ViewModels/ShellViewModel.cs:133 | the file name is the part of the path after its last separator (`\`, `/` or `:`), or the whole path if there is none |
| `Paths.Combine` | AddExif/ViewModels/ShellViewModel.cs:214 | the full path starts with the folder and ends with the manifest file name |
| `Paths.BaseNameOfCombine` | AddExif/ViewModels/ShellViewModel.cs:214 | the file name of the combined path is the manifest file name, so the processed file is the one the row names |
| `Paths.BaseNameLower` | AddExif/ViewModels/ShellViewModel.cs:133 | lower-casing a path and taking its file name commute, so the filter and the key see the same name |
| `Images.WithStatus` | AddExif/Models/ImageInfo.cs:28 | assigning `Status` sets it and leaves all ten manifest fields unchanged |
| `Images.ErrorStatus` | AddExif/ViewModels/ShellViewModel.cs:225 | a failure status is `ERROR - ` followed by exactly the exception's message |
| `Images.IsPending` | AddExif/ViewModels/ShellViewModel.cs:210 | the run's selection: an entry is selected exactly when its status starts with `PENDING` |
| `Images.TerminalStatusesNotPending` | AddExif/ViewModels/ShellViewModel.cs:210-227 | neither the not-found status, nor `SUCCESS`, nor any `ERROR - ` status starts with `PENDING`, so none of them is selected by a later run |
| `Matcher.IsEligible` | AddExif/ViewModels/ShellViewModel.cs:133 | a folder file is considered only when its lower-cased path ends in `.png` or `.jpg` |
| `Matcher.InFolder` | AddExif/ViewModels/ShellViewModel.cs:133-138 | a manifest name is in the folder when some listed path ending in `.png` or `.jpg` (ignoring case) has the row's lower-cased name as its lower-cased file name |
| `Matcher.MatchKey` | AddExif/ViewModels/ShellViewModel.cs:133 | a folder file's key is a tail of its lower-cased path, with no separator and no upper-case letter |
| `Matcher.EligibleKeyLength` | AddExif/ViewModels/ShellViewModel.cs:133 | the key of an eligible file keeps its whole extension, so it has at least four characters |
| `Matcher.FoundNameIsBare` | AddExif/ViewModels/ShellViewModel.cs:133-141 | a manifest name found in the folder has at least four characters and no separator: it is neither empty nor rooted, so `Path.Combine` at line 214 joins it plainly |
| `Matcher.FolderKeys` | AddExif/ViewModels/ShellViewModel.cs:133 | a name is a folder key exactly when some listed path ends in `.png` or `.jpg` (ignoring case) and has that lower-cased file name |
| `Matcher.InitialStatus` | AddExif/ViewModels/ShellViewModel.cs:138-145 | a row is loaded `PENDING` or `ERROR - NOT FOUND IN CSV`, and its status starts with `PENDING` exactly when its lower-cased name is a folder key |
| `Matcher.Reconcile` | AddExif/ViewModels/ShellViewModel.cs:136-150 | one entry per manifest row, in manifest order and with duplicates kept, holding that row; it is `PENDING` exactly when the lower-cased file name is a folder key, and `ERROR - NOT FOUND IN CSV` otherwise |
| `Matcher.Load` | AddExif/ViewModels/ShellViewModel.cs:121-155 | a manifest that cannot be opened, or a folder that cannot be enumerated, gives an empty store and the error; otherwise every row read is reconciled, and the reader's error, if any, is reported |
| `Matcher.KeyIgnoresCase` | AddExif/ViewModels/ShellViewModel.cs:133 | paths equal up to letter case are eligible alike and give the same key |
| `Matcher.ReconcileIgnoresFolderCase` | AddExif/ViewModels/ShellViewModel.cs:133 | changing the letter case of folder file names changes no entry |
| `Matcher.ReconcileIgnoresFileNameCase` | AddExif/ViewModels/ShellViewModel.cs:138 | changing the letter case of manifest file names changes no status |
| `Matcher.IneligibleFileIgnored` | AddExif/ViewModels/ShellViewModel.cs:133 | adding a file that does not end in `.png`/`.jpg` anywhere in the listing changes nothing |
| `Matcher.JpegNeverMatches` | AddExif/ViewModels/ShellViewModel.cs:133 | a row naming `photo.jpeg` is not found even when the folder holds exactly that file |
| `Matcher.MixedCaseMatches` | AddExif/ViewModels/ShellViewModel.cs:138-141 | a row naming `Photo.JPG` is pending against a folder file `photo.jpg` |
| `Batch.EntryLog` | AddExif/ViewModels/ShellViewModel.cs:178-199 | what processing one entry appends to the log: the `Processing "<path>"` line, then the output and a newline when the output was read; its shape is the next row |
| `Batch.EntryLogLines` | AddExif/ViewModels/ShellViewModel.cs:178-199 | the `Processing "<path>"` line is always logged, and more is logged exactly when the tool's output was read |
| `Batch.StatusAfter` | AddExif/ViewModels/ShellViewModel.cs:212-227 | a processed entry becomes `SUCCESS` when the tool returned normally and `ERROR - <message>` on an exception; neither is selected again |
| `Batch.Settle` | AddExif/ViewModels/ShellViewModel.cs:210-227 | what the run does to one entry: a selected entry keeps its fields and gets its outcome's status; any other entry is kept as it is |
| `Batch.PendingEntries` | AddExif/ViewModels/ShellViewModel.cs:210 | the entries the run walks: the selected entries of the store, in store order, as many as the store has selected entries |
| `Batch.PendingEntriesSelect` | AddExif/ViewModels/ShellViewModel.cs:210 | an entry is among those the run walks exactly when it is in the store and its status starts with `PENDING` |
| `Batch.TargetPath` | AddExif/ViewModels/ShellViewModel.cs:214 | the path an entry is processed as, both logged and handed to the tool: the folder combined with the row's file name |
| `Batch.TargetPathNamesFile` | AddExif/ViewModels/ShellViewModel.cs:214 | for a row file name without a separator, the processed path starts with the folder and its file name is exactly the row's file name |
| `Batch.RunFrom` | AddExif/ViewModels/ShellViewModel.cs:210-227 | the loop over the store from a given invocation position keeps the store's length; each entry's fate is the next row |
| `Batch.RunEntry` | AddExif/ViewModels/ShellViewModel.cs:210-227 | every entry is settled independently. The selected entry with `k` selected entries before it gets the outcome of the `k`-th invocation, made with its own record and path. A failure therefore never stops or alters later entries |
| `Batch.CallsBeforeCountsPrefix` | AddExif/ViewModels/ShellViewModel.cs:210 | that invocation position is the number of `PENDING` entries before the entry |
| `Batch.RunSettles` | AddExif/ViewModels/ShellViewModel.cs:210-227 | a run keeps the store's length, order and manifest fields, leaves unselected entries exactly as they were, and leaves no entry selected |
| `Batch.Run` | AddExif/ViewModels/ShellViewModel.cs:210-227 | a whole run keeps the store's length and manifest fields, leaves unselected entries as they were, and leaves none `PENDING` |
| `Batch.RunLog` | AddExif/ViewModels/ShellViewModel.cs:174-203 | the text a run appends is, for each selected entry in store order, `Processing "<path>"` and a newline, then the tool's output and a newline if the output was read |
| `Batch.RunWithoutPending` | AddExif/ViewModels/ShellViewModel.cs:210 | with no entry selected, a run changes nothing and logs nothing |
| `Batch.RunTwice` | AddExif/ViewModels/ShellViewModel.cs:210-227 | a second run is a no-op whatever the tool does |
| `Batch.RunIgnoresNewFileName` | AddExif/ViewModels/ShellViewModel.cs:190 | `NewFileName` has no influence on a run: stores that differ only there get the same statuses and log |
| `Batch.ArgumentsIgnoreNewFileName` | AddExif/Models/ImageInfo.cs:17 | the argument string does not depend on `NewFileName` |
| `Shell.CanRun` | AddExif/ViewModels/ShellViewModel.cs:57-60 | the run command is enabled exactly when the grid holds at least one entry |
| `Shell.ChooseFolder` | AddExif/ViewModels/ShellViewModel.cs:107-117 | choosing a folder records it and reloads the store, keeping the log; a manifest that cannot be opened or a folder that cannot be listed empties the store and is shown; otherwise the store has one entry per row read, and a reader's error is shown |
| `Shell.DoRun` | AddExif/ViewModels/ShellViewModel.cs:205-231 | the log is only appended to; entries keep their fields and order; unselected entries are unchanged; afterwards none is `PENDING` |
| `Shell.ReloadReplacesStore` | AddExif/ViewModels/ShellViewModel.cs:127 | the store after a load does not depend on the store before it |
| `Shell.LoadedEntries` | AddExif/ViewModels/ShellViewModel.cs:136-150 | after a load, entry `i` holds row `i`, and it is selected by the run exactly when its file is in the folder |
| `Shell.TargetOfFoundRow` | AddExif/ViewModels/ShellViewModel.cs:214 | for a row found in the folder, the path the run logs and hands to the tool starts with the folder, and its file name is exactly the row's file name |
| `Shell.CanRunAfterLoad` | AddExif/ViewModels/ShellViewModel.cs:57-60 | after a load the run is enabled exactly when the manifest and the folder could be read and at least one row was read |
| `Shell.DoRunDisabled` | AddExif/ViewModels/ShellViewModel.cs:57-60 | with an empty grid a run changes nothing |
| `Shell.DoRunTwice` | AddExif/ViewModels/ShellViewModel.cs:210 | running twice is the same as running once, log included |
| `Shell.DoRunLog` | AddExif/ViewModels/ShellViewModel.cs:178-199 | a run appends to the earlier log the `Processing` lines and outputs of the selected entries, in store order |
| `Shell.ExampleLoad` | AddExif/ViewModels/ShellViewModel.cs:133-145 | rows `img1.jpg` and `img2.jpg` against a folder holding only `img1.jpg` load as `PENDING` and `ERROR - NOT FOUND IN CSV` |
| `Shell.ExampleRun` | AddExif/ViewModels/ShellViewModel.cs:210-227 | running on that store invokes the tool once, for `img1.jpg`. A normal return gives `SUCCESS` and an exception gives `ERROR - <message>`; `img2.jpg` is unchanged. The log is that one `Processing` line and the output read |

## Left out

- Reading the CSV file (CsvHelper, ShellViewModel.cs:130-135): the header mapping and record parsing are a library's. The reader's result is a parameter. Manifest fields are never null: an empty cell is an empty string.
- Enumerating the folder (`Directory.EnumerateFiles`): the listing is a parameter. The code's query is lazy and re-enumerates the folder for every row. The model takes one snapshot, with an enumeration error reported before any row is added.
- Paths.Combine: puts one `\` between folder and name unless the folder is empty or already ends in `\`, `/` or `:`, as `Path.Combine` does. Three cases of `Path.Combine` are not modelled. It throws on characters invalid in paths. It returns the name alone when the name is rooted. It returns the folder unchanged when the name is empty, where the model appends a `\`. Only entries found in the folder are combined, and Matcher.FoundNameIsBare shows their names are never empty or rooted. So the last two cases cannot arise in a run.
- Paths.BaseName: models `Path.GetFileName` on Windows paths only. Its separators are `\`, `/` and `:`.
- Text.Lower: `ToLower` is culture-sensitive. The model folds ASCII letters only.
- Text.StartsWith, Text.EndsWith: the source's one-argument `EndsWith(".png")`, `EndsWith(".jpg")` and `StartsWith("PENDING")` compare by the current culture, which ignores ignorable code points such as the soft hyphen U+00AD. The model compares ordinally. So a folder file `photo.jpg` followed by a soft hyphen is eligible in the program but not in the model.
- Starting `exiftool.exe`, reading its output and waiting for it (ShellViewModel.cs:187-201): these are process I/O and become the `Batch.Tool` oracle. Its effect on the image file is not modelled. The exit code is never inspected by the code, so it is absent.
- CommandLine: two rules of the Windows command-line parser are not modelled. The backslash rules are one, so Tagging.ArgumentsAsReceived excludes values whose quoted part ends in a backslash. The other is that inside quotes a doubled quote `""` stands for one literal quote. Under Tagging.Clean no value holds a quote, and in the template every closing quote is followed by a blank or ends the line, so that rule never applies there.
- Tagging.ArgumentsAsReceived: applies only to values without double quotes, and without blanks in the unquoted comment, rating and coordinates. The code does no escaping, so other values reach the tool split or merged. That case is not characterised.
- `Task.Run`, `async`/`await` and `Dispatcher.BeginInvoke` (ShellViewModel.cs:123-128, 147-150, 216-226): a load is complete before a run starts. The posted clear and adds are applied in order. A run works on the store as it was when it started.
- Dialogs, the progress window, NLog, Prism command wiring and property-change notification: UI plumbing, left out. The same goes for `ChooseCsv` (ShellViewModel.cs:76-83, 157-172), which has no guard, and for the `CanChooseFolder` guard of the folder command (ShellViewModel.cs:62-74), which enables choosing a folder only once a manifest path is set. `Shell.ChooseFolder` starts after the folder was picked, and its error dialog is the `dialog` message.
- `App.xaml.cs`: dependency-injection registration and window creation only.

=== FILE: batch.dfy ===
/** The batch run (`DoRun` with `UpdateMeta`): the store is walked in order,
    every entry whose status starts with `PENDING` is handed to the external
    tool, and its status becomes `SUCCESS` or `ERROR - <message>`; a failure
    is recorded and the walk goes on. Each processed entry appends a
    `Processing "<path>"` line to the log, then the tool's output. */
module Batch {
  import opened Text
  import opened Paths
  import opened Images
  import opened Tagging

  /** What one invocation of the tool did. `Exited`: the process ran, its
      output was read and it exited. `Failed`: an exception before the
      output was logged (the process could not be started, or reading its
      output failed). `FailedAfterOutput`: the output was logged, then
      waiting for the process raised an exception. */
  datatype ToolOutcome =
    | Exited(output: string)
    | Failed(message: string)
    | FailedAfterOutput(output: string, message: string)

  /** One invocation: the record whose fields are written and the full
      path of the target file. */
  datatype Call = Call(meta: Metadata, path: string)

  /** The argument string the tool is started with for a call. */
  function ArgumentString(c: Call): string {
    BuildArguments(c.meta, c.path)
  }

  /** The external tool, as an oracle: the outcome of the invocation with
      the given position within the run, for the given call. The oracle may
      look at the whole call, so every property proved below holds in
      particular for a tool that sees only `ArgumentString(c)` (`OnArguments`). */
  type Tool = (nat, Call) -> ToolOutcome

  /** The tool that is started with the argument string and sees nothing
      else. */
  function OnArguments(t: (nat, string) -> ToolOutcome): Tool {
    (n: nat, c: Call) => t(n, ArgumentString(c))
  }

  /** `Environment.NewLine` on Windows. */
  const NewLine: string := "\r\n"

  /** The full path of an entry's file: the folder combined with the
      manifest file name. */
  function TargetPath(folder: string, e: ImageInfo): string {
    Combine(folder, e.meta.fileName)
  }

  /** For a bare file name, the target path starts with the folder and
      names the row's own file. */
  lemma TargetPathNamesFile(folder: string, e: ImageInfo)
    requires forall k :: 0 <= k < |e.meta.fileName| ==> !IsSeparator(e.meta.fileName[k])
    ensures StartsWith(TargetPath(folder, e), folder)
    ensures BaseName(TargetPath(folder, e)) == e.meta.fileName
  {
    BaseNameOfCombine(folder, e.meta.fileName);
  }

  /** The invocation made for an entry. */
  function Invocation(folder: string, e: ImageInfo): Call {
    Call(e.meta, TargetPath(folder, e))
  }

  /** What processing one entry appends to the log. */
  function EntryLog(path: string, o: ToolOutcome): string {
    "Processing \"" + path + "\"" + NewLine
    + (match o
       case Failed(_) => ""
       case Exited(output) => output + NewLine
       case FailedAfterOutput(output, _) => output + NewLine)
  }

  /** The `Processing` line is always logged, and anything after it
      exactly when the tool's output was read. */
  lemma EntryLogLines(path: string, o: ToolOutcome)
    ensures var line := "Processing \"" + path + "\"" + NewLine;
            StartsWith(EntryLog(path, o), line) && (o.Failed? <==> EntryLog(path, o) == line)
  {
  }

  /** The status a processed entry is left with. */
  function StatusAfter(o: ToolOutcome): (r: string)
    ensures !StartsWith(r, Pending)
    ensures o.Exited? ==> r == Success
    ensures !o.Exited? ==> r == ErrorStatus(o.message)
  {
    TerminalStatusesNotPending(if o.Exited? then "" else o.message);
    if o.Exited? then Success else ErrorStatus(o.message)
  }

  /** Number of entries the run selects. */
  function PendingCount(store: seq<ImageInfo>): nat
    decreases |store|
  {
    if |store| == 0 then 0
    else (if IsPending(store[0]) then 1 else 0) + PendingCount(store[1..])
  }

  /** The entries the run selects, in store order. */
  function PendingEntries(store: seq<ImageInfo>): (r: seq<ImageInfo>)
    ensures |r| == PendingCount(store)
    decreases |store|
  {
    if |store| == 0 then []
    else (if IsPending(store[0]) then [store[0]] else []) + PendingEntries(store[1..])
  }

  /** The pending entries are exactly the selected entries of the store. */
  lemma {:induction false} PendingEntriesSelect(store: seq<ImageInfo>)
    ensures forall e :: e in PendingEntries(store) <==> e in store && IsPending(e)
    decreases |store|
  {
    if |store| > 0 {
      PendingEntriesSelect(store[1..]);
      assert forall e :: e in store <==> e == store[0] || e in store[1..];
    }
  }

  /** What the run does to one entry when its invocation has position `n`:
      a selected entry gets the outcome's status, any other is kept. */
  function Settle(e: ImageInfo, folder: string, tool: Tool, n: nat): (r: ImageInfo)
    ensures r.meta == e.meta
    ensures !IsPending(r)
    ensures !IsPending(e) ==> r == e
    ensures IsPending(e) ==> r.status == StatusAfter(tool(n, Invocation(folder, e)))
  {
    if IsPending(e) then WithStatus(e, StatusAfter(tool(n, Invocation(folder, e)))) else e
  }

  /** What the run appends to the log for one entry. */
  function SettleLog(e: ImageInfo, folder: string, tool: Tool, n: nat): string {
    if IsPending(e) then EntryLog(TargetPath(folder, e), tool(n, Invocation(folder, e))) else ""
  }

  /** Position of the first invocation after the head of `store`. */
  function NextCalls(store: seq<ImageInfo>, calls: nat): nat
    requires |store| > 0
  {
    if IsPending(store[0]) then calls + 1 else calls
  }

  datatype RunResult = RunResult(store: seq<ImageInfo>, log: string)

  /** The run over `store`, whose first invocation has position `calls`. */
  function RunFrom(store: seq<ImageInfo>, folder: string, tool: Tool, calls: nat): (r: RunResult)
    ensures |r.store| == |store|
    decreases |store|
  {
    if |store| == 0 then RunResult([], "")
    else
      var rest := RunFrom(store[1..], folder, tool, NextCalls(store, calls));
      RunResult([Settle(store[0], folder, tool, calls)] + rest.store,
                SettleLog(store[0], folder, tool, calls) + rest.log)
  }

  /** A run from the start of the store: it keeps the store's length and
      manifest fields, leaves entries it does not select as they were, and
      leaves none selected. */
  function Run(store: seq<ImageInfo>, folder: string, tool: Tool): (r: RunResult)
    ensures |r.store| == |store|
    ensures forall i :: 0 <= i < |store| ==> r.store[i].meta == store[i].meta
    ensures forall i :: 0 <= i < |store| && !IsPending(store[i]) ==> r.store[i] == store[i]
    ensures forall i :: 0 <= i < |store| ==> !IsPending(r.store[i])
  {
    RunSettles(store, folder, tool, 0);
    RunFrom(store, folder, tool, 0)
  }

  /** Number of entries before position `i` that the run selects: the
      invocation position of entry `i`, counted from the start of the run. */
  function CallsBefore(store: seq<ImageInfo>, i: nat): (r: nat)
    requires i <= |store|
    ensures r <= i
    decreases i
  {
    if i == 0 then 0
    else (if IsPending(store[0]) then 1 else 0) + CallsBefore(store[1..], i - 1)
  }

  lemma {:induction false} CallsBeforeCountsPrefix(store: seq<ImageInfo>, i: nat)
    requires i <= |store|
    ensures CallsBefore(store, i) == PendingCount(store[..i])
    decreases i
  {
    if i > 0 {
      CallsBeforeCountsPrefix(store[1..], i - 1);
      assert store[..i][1..] == store[1..][..i - 1];
    }
  }

  /** Each entry is settled on its own: entry `i` is handled exactly as if
      it were alone, with the invocation position that counts the selected
      entries before it. In particular a failing invocation does not stop
      or alter the handling of the entries after it. */
  lemma {:induction false} RunEntry(store: seq<ImageInfo>, folder: string, tool: Tool, calls: nat, i: nat)
    requires i < |store|
    ensures RunFrom(store, folder, tool, calls).store[i] == Settle(store[i], folder, tool, calls + CallsBefore(store, i))
    decreases |store|
  {
    if i == 0 {
      RunHead(store, folder, tool, calls);
    } else {
      RunEntry(store[1..], folder, tool, NextCalls(store, calls), i - 1);
      RunEntryShift(store, folder, tool, calls, i);
    }
  }

  // RunHead, RunShift, CallsBeforeStep and SameSettle are the steps of
  // `RunEntryShift`, kept apart only so that each stays within the solver's
  // budget; SameSettle merely substitutes equals for equals.

  lemma RunHead(store: seq<ImageInfo>, folder: string, tool: Tool, calls: nat)
    requires 0 < |store|
    ensures RunFrom(store, folder, tool, calls).store[0] == Settle(store[0], folder, tool, calls + CallsBefore(store, 0))
  {
  }

  /** The inductive step of `RunEntry`. */
  lemma RunEntryShift(store: seq<ImageInfo>, folder: string, tool: Tool, calls: nat, i: nat)
    requires 0 < i < |store|
    requires RunFrom(store[1..], folder, tool, NextCalls(store, calls)).store[i - 1]
          == Settle(store[1..][i - 1], folder, tool, NextCalls(store, calls) + CallsBefore(store[1..], i - 1))
    ensures RunFrom(store, folder, tool, calls).store[i] == Settle(store[i], folder, tool, calls + CallsBefore(store, i))
  {
    var next := NextCalls(store, calls);
    var tail := store[1..];
    RunShift(store, folder, tool, calls, i);
    assert tail[i - 1] == store[i];
    CallsBeforeStep(store, calls, i);
    SameSettle(RunFrom(store, folder, tool, calls).store[i], tail[i - 1], store[i],
               folder, tool, next + CallsBefore(tail, i - 1), calls + CallsBefore(store, i));
  }

  lemma RunShift(store: seq<ImageInfo>, folder: string, tool: Tool, calls: nat, i: nat)
    requires 0 < i < |store|
    ensures RunFrom(store, folder, tool, calls).store[i]
         == RunFrom(store[1..], folder, tool, NextCalls(store, calls)).store[i - 1]
  {
  }

  lemma CallsBeforeStep(store: seq<ImageInfo>, calls: nat, i: nat)
    requires 0 < i <= |store|
    ensures calls + CallsBefore(store, i) == NextCalls(store, calls) + CallsBefore(store[1..], i - 1)
  {
  }

  lemma SameSettle(r: ImageInfo, e: ImageInfo, e': ImageInfo, folder: string, tool: Tool, n: nat, n': nat)
    requires e == e' && n == n'
    requires r == Settle(e, folder, tool, n)
    ensures r == Settle(e', folder, tool, n')
  {
  }

  /** The run keeps the store's length, order and manifest fields, leaves
      entries it does not select exactly as they were, and leaves no entry
      selected. */
  lemma RunSettles(store: seq<ImageInfo>, folder: string, tool: Tool, calls: nat)
    ensures var r := RunFrom(store, folder, tool, calls).store;
            && |r| == |store|
            && (forall i :: 0 <= i < |store| ==> r[i].meta == store[i].meta)
            && (forall i :: 0 <= i < |store| && !IsPending(store[i]) ==> r[i] == store[i])
            && (forall i :: 0 <= i < |store| ==> !IsPending(r[i]))
  {
    forall i | 0 <= i < |store|
      ensures RunFrom(store, folder, tool, calls).store[i] == Settle(store[i], folder, tool, calls + CallsBefore(store, i))
    {
      RunEntry(store, folder, tool, calls, i);
    }
  }

  /** The log lines of the selected entries `ps`, in order, the first
      invoked at position `calls`. */
  function EntryLogs(ps: seq<ImageInfo>, folder: string, tool: Tool, calls: nat): (r: seq<string>)
    ensures |r| == |ps|
    decreases |ps|
  {
    if |ps| == 0 then []
    else [EntryLog(TargetPath(folder, ps[0]), tool(calls, Invocation(folder, ps[0])))]
         + EntryLogs(ps[1..], folder, tool, calls + 1)
  }

  /** The text a run appends to the log is, for each selected entry in
      order, its `Processing` line followed by what the tool printed. */
  lemma {:induction false} RunLog(store: seq<ImageInfo>, folder: string, tool: Tool, calls: nat)
    ensures RunFrom(store, folder, tool, calls).log == Concat(EntryLogs(PendingEntries(store), folder, tool, calls))
    decreases |store|
  {
    if |store| > 0 {
      var ps := PendingEntries(store[1..]);
      RunLog(store[1..], folder, tool, NextCalls(store, calls));
      if IsPending(store[0]) {
        assert ([store[0]] + ps)[1..] == ps;
      } else {
        assert [] + ps == ps;
      }
    }
  }

  /** With nothing selected, a run changes nothing and logs nothing. */
  lemma {:induction false} RunWithoutPending(store: seq<ImageInfo>, folder: string, tool: Tool, calls: nat)
    requires forall i :: 0 <= i < |store| ==> !IsPending(store[i])
    ensures RunFrom(store, folder, tool, calls) == RunResult(store, "")
    decreases |store|
  {
    if |store| > 0 {
      RunWithoutPending(store[1..], folder, tool, calls);
      assert [store[0]] + store[1..] == store;
    }
  }

  /** A second run is a no-op, whatever the tool would do. */
  lemma RunTwice(store: seq<ImageInfo>, folder: string, tool: Tool, tool': Tool)
    ensures var first := Run(store, folder, tool);
            Run(first.store, folder, tool') == RunResult(first.store, "")
  {
    var first := Run(store, folder, tool);
    RunSettles(store, folder, tool, 0);
    RunWithoutPending(first.store, folder, tool', 0);
  }

  /** The carried-along `NewFileName` column has no influence on a run by
      a tool that sees only the argument string: stores that differ only
      there get the same statuses and the same log. */
  lemma {:induction false} RunIgnoresNewFileName(store: seq<ImageInfo>, store': seq<ImageInfo>, folder: string,
                                                 t: (nat, string) -> ToolOutcome, calls: nat)
    requires |store| == |store'|
    requires forall i :: 0 <= i < |store| ==>
               store'[i] == store[i].(meta := store[i].meta.(newFileName := store'[i].meta.newFileName))
    ensures var r, r' := RunFrom(store, folder, OnArguments(t), calls), RunFrom(store', folder, OnArguments(t), calls);
            && r.log == r'.log
            && forall i :: 0 <= i < |store| ==> r.store[i].status == r'.store[i].status
    decreases |store|
  {
    if |store| > 0 {
      RunIgnoresNewFileName(store[1..], store'[1..], folder, t, NextCalls(store, calls));
      ArgumentsIgnoreNewFileName(store[0].meta, store'[0].meta.newFileName, TargetPath(folder, store[0]));
    }
  }

  lemma ArgumentsIgnoreNewFileName(m: Metadata, newFileName: string, path: string)
    ensures ArgumentString(Call(m.(newFileName := newFileName), path)) == ArgumentString(Call(m, path))
  {
  }
}

=== FILE: command_line.dfy ===
/** How a process receives its `Arguments` string: the quote and white-space
    rules of the Windows command-line parser, reduced to what the tool's
    command line needs. Outside quotes a space or tab ends an argument; a
    double quote toggles quoting and is dropped. Two rules of the parser are
    not modelled: the backslash rules, which only act on backslashes
    immediately before a double quote, and the rule that a doubled quote
    `""` inside quotes stands for one literal quote. Neither can be reached
    on a command line whose quoted values hold no quote and do not end in a
    backslash, and after whose every closing quote comes a blank or the end
    of the line. */
module CommandLine {

  predicate IsBlank(c: char) {
    c == ' ' || c == '\t'
  }

  /** Parser state: the arguments finished so far, the one being read,
      whether one has begun (an empty `""` still begins one), and whether
      the parser is inside quotes. */
  datatype Lexer = Lexer(args: seq<string>, current: string, inArg: bool, quoted: bool)

  /** Between arguments, outside quotes. */
  function Idle(args: seq<string>): Lexer {
    Lexer(args, "", false, false)
  }

  function Step(l: Lexer, c: char): Lexer {
    if c == '"' then l.(inArg := true, quoted := !l.quoted)
    else if IsBlank(c) && !l.quoted then
      (if l.inArg then Idle(l.args + [l.current]) else l)
    else l.(current := l.current + [c], inArg := true)
  }

  function Scan(l: Lexer, s: string): Lexer
    decreases |s|
  {
    if |s| == 0 then l else Scan(Step(l, s[0]), s[1..])
  }

  /** The argument vector the tool receives for the command line `s`. */
  function Arguments(s: string): seq<string> {
    Finish(Scan(Idle([]), s))
  }

  /** The end of the command line ends the argument being read, if any. */
  function Finish(l: Lexer): seq<string> {
    if l.inArg then l.args + [l.current] else l.args
  }

  /** Characters that may appear inside quotes without ending them. */
  predicate NoQuote(s: string) {
    '"' !in s
  }

  /** Characters that may appear unquoted without ending the argument. */
  predicate Bare(s: string) {
    forall k :: 0 <= k < |s| ==> s[k] != '"' && !IsBlank(s[k])
  }

  lemma {:induction false} ScanAppend(l: Lexer, a: string, b: string)
    ensures Scan(l, a + b) == Scan(Scan(l, a), b)
    decreases |a|
  {
    if |a| == 0 {
      assert a + b == b;
    } else {
      assert (a + b)[1..] == a[1..] + b;
      ScanAppend(Step(l, a[0]), a[1..], b);
    }
  }

  /** Text with no quote, and no blank unless inside quotes, is appended to
      the current argument. */
  lemma {:induction false} ScanPlain(l: Lexer, w: string)
    requires NoQuote(w)
    requires l.quoted || Bare(w)
    ensures Scan(l, w) == l.(current := l.current + w, inArg := l.inArg || |w| > 0)
    decreases |w|
  {
    if |w| == 0 {
      assert l.current + w == l.current;
    } else {
      assert w[0] in w;
      var l' := Step(l, w[0]);
      assert l' == l.(current := l.current + [w[0]], inArg := true);
      assert forall c :: c in w[1..] ==> c in w;
      ScanPlain(l', w[1..]);
      assert l.current + [w[0]] + w[1..] == l.current + w;
    }
  }

  /** `p"v" ` with `p` bare and `v` quote-free is the one argument `p + v`. */
  lemma ScanQuoted(args: seq<string>, p: string, v: string)
    requires Bare(p) && NoQuote(v)
    ensures Scan(Idle(args), p + "\"" + v + "\" ") == Idle(args + [p + v])
  {
    assert NoQuote(p) by {
      forall k | 0 <= k < |p| ensures p[k] != '"' { }
    }
    var l0 := Idle(args);
    ScanAppend(l0, p + "\"" + v, "\" ");
    ScanAppend(l0, p + "\"", v);
    ScanAppend(l0, p, "\"");
    ScanPlain(l0, p);
    assert "" + p == p;
    var l1 := Lexer(args, p, |p| > 0, false);
    ScanQuote(l1);
    ScanPlain(Lexer(args, p, true, true), v);
    ScanCloseThenBlank(Lexer(args, p + v, true, true));
  }

  lemma ScanQuote(l: Lexer)
    ensures Scan(l, "\"") == l.(inArg := true, quoted := !l.quoted)
  {
    assert "\""[1..] == "";
  }

  lemma ScanCloseThenBlank(l: Lexer)
    requires l.quoted && l.inArg
    ensures Scan(l, "\" ") == Idle(l.args + [l.current])
  {
    assert "\" "[1..] == " ";
    assert " "[1..] == "";
  }

  /** A blank between arguments changes nothing. */
  lemma ScanBlank(args: seq<string>)
    ensures Scan(Idle(args), " ") == Idle(args)
  {
  }

  /** Inside quotes, part-way through the argument `current`. */
  function Open(args: seq<string>, current: string): Lexer {
    Lexer(args, current, true, true)
  }

  /** Outside quotes, part-way through the argument `current`. */
  function Word(args: seq<string>, current: string): Lexer {
    Lexer(args, current, true, false)
  }

  lemma ScanBlankEnds(args: seq<string>, current: string)
    ensures Scan(Word(args, current), " ") == Idle(args + [current])
  {
    assert " "[1..] == "";
  }

  lemma ScanPlainFrom(l: Lexer, w: string)
    requires Bare(w) && !l.quoted
    ensures Scan(l, w) == l.(current := l.current + w, inArg := l.inArg || |w| > 0)
  {
    assert NoQuote(w) by {
      forall k | 0 <= k < |w| ensures w[k] != '"' { }
    }
    ScanPlain(l, w);
  }

  /** `name"` between arguments opens a quoted argument beginning `name`. */
  lemma ScanOpenOption(args: seq<string>, name: string)
    requires Bare(name)
    ensures Scan(Idle(args), name + "\"") == Open(args, name)
  {
    ScanAppend(Idle(args), name, "\"");
    ScanPlainFrom(Idle(args), name);
    assert "" + name == name;
    ScanQuote(Word(args, name).(inArg := |name| > 0));
  }

  /** ` name"` between arguments does the same: the blank is skipped. */
  lemma ScanBlankOpenOption(args: seq<string>, name: string)
    requires Bare(name)
    ensures Scan(Idle(args), " " + name + "\"") == Open(args, name)
  {
    ScanAppend(Idle(args), " ", name + "\"");
    ScanBlank(args);
    ScanOpenOption(args, name);
    assert " " + name + "\"" == " " + (name + "\"");
  }

  /** `" name` closes the quoted argument and begins an unquoted one. */
  lemma ScanCloseThenWord(args: seq<string>, current: string, name: string)
    requires Bare(name) && |name| > 0
    ensures Scan(Open(args, current), "\" " + name) == Word(args + [current], name)
  {
    ScanAppend(Open(args, current), "\" ", name);
    ScanCloseThenBlank(Open(args, current));
    ScanPlainFrom(Idle(args + [current]), name);
    assert "" + name == name;
  }

  /** `" name"` closes the quoted argument and opens the next one. */
  lemma ScanCloseThenOpen(args: seq<string>, current: string, name: string)
    requires Bare(name)
    ensures Scan(Open(args, current), "\" " + name + "\"") == Open(args + [current], name)
  {
    ScanAppend(Open(args, current), "\" ", name + "\"");
    ScanCloseThenBlank(Open(args, current));
    ScanOpenOption(args + [current], name);
    assert "\" " + name + "\"" == "\" " + (name + "\"");
  }

  /** ` name` ends the unquoted argument and begins the next one. */
  lemma ScanNextWord(args: seq<string>, current: string, name: string)
    requires Bare(name) && |name| > 0
    ensures Scan(Word(args, current), " " + name) == Word(args + [current], name)
  {
    ScanAppend(Word(args, current), " ", name);
    ScanBlankEnds(args, current);
    ScanPlainFrom(Idle(args + [current]), name);
    assert "" + name == name;
  }

  /** ` "` ends the unquoted argument and opens an empty quoted one. */
  lemma ScanNextOpen(args: seq<string>, current: string)
    ensures Scan(Word(args, current), " \"") == Open(args + [current], "")
  {
    ScanAppend(Word(args, current), " ", "\"");
    ScanBlankEnds(args, current);
    ScanQuote(Idle(args + [current]));
    assert " \"" == " " + "\"";
  }

  /** A quote-free value extends the current argument, quoted or not. */
  lemma ScanValue(l: Lexer, v: string)
    requires l.inArg
    requires if l.quoted then NoQuote(v) else Bare(v)
    ensures Scan(l, v) == l.(current := l.current + v)
  {
    if l.quoted {
      ScanPlain(l, v);
    } else {
      ScanPlainFrom(l, v);
    }
  }

  /** The closing quote at the end of the command line ends the last argument. */
  lemma FinishClosed(args: seq<string>, current: string)
    ensures Finish(Scan(Open(args, current), "\"")) == args + [current]
  {
    ScanQuote(Open(args, current));
  }
}

=== FILE: images.dfy ===
/** The `ImageInfo` record: ten manifest columns, all opaque strings, plus the
    status the view model assigns. */
module Images {
  import opened Text

  /** One manifest row. These are exactly the ten properties the manifest
      reader binds from named columns; none is parsed or validated, so
      `rating`, `latitude` and `longitude` stay strings. */
  datatype Metadata = Metadata(
    fileName: string,
    newFileName: string,
    title: string,
    subject: string,
    rating: string,
    tags: string,
    comments: string,
    latitude: string,
    longitude: string,
    author: string)

  /** A store entry. `status` is excluded from the manifest mapping, so it is
      kept apart from the row it annotates. */
  datatype ImageInfo = ImageInfo(meta: Metadata, status: string)

  /** Status of a row whose file is present; also the prefix the run selects on. */
  const Pending: string := "PENDING"
  /** Status of a row whose file is absent from the folder (the text says CSV). */
  const NotFound: string := "ERROR - NOT FOUND IN CSV"
  const Success: string := "SUCCESS"
  const ErrorPrefix: string := "ERROR - "

  /** Status of an entry whose processing raised an exception. */
  function ErrorStatus(message: string): (r: string)
    ensures StartsWith(r, ErrorPrefix)
    ensures r[|ErrorPrefix|..] == message
  {
    ErrorPrefix + message
  }

  /** The run's selection: the status starts with `PENDING`. */
  predicate IsPending(e: ImageInfo) {
    StartsWith(e.status, Pending)
  }

  /** Assigning `Status`: the manifest fields stay as they were. */
  function WithStatus(e: ImageInfo, status: string): (r: ImageInfo)
    ensures r.meta == e.meta
    ensures r.status == status
  {
    e.(status := status)
  }

  /** Neither the not-found status nor any status a run assigns is selected
      by a later run. */
  lemma TerminalStatusesNotPending(message: string)
    ensures !StartsWith(NotFound, Pending)
    ensures !StartsWith(Success, Pending)
    ensures !StartsWith(ErrorStatus(message), Pending)
  {
    assert NotFound[0] != Pending[0];
    assert Success[0] != Pending[0];
    assert ErrorStatus(message)[0] == 'E';
  }
}

=== FILE: matcher.dfy ===
/** Loading a manifest against a folder (`ReadImages`): the folder's eligible
    files give a set of lower-cased file names, and every manifest row becomes
    an entry marked pending or not found, in manifest order. */
module Matcher {
  import opened Text
  import opened Results
  import opened Paths
  import opened Images

  /** A folder path qualifies when its lower-cased form ends in `.png` or `.jpg`. */
  predicate IsEligible(path: string) {
    var l := Lower(path);
    EndsWith(l, ".png") || EndsWith(l, ".jpg")
  }

  /** The key a folder file is matched under: its lower-cased file name,
      which is the separator-free tail of the lower-cased path. */
  function MatchKey(path: string): (key: string)
    ensures EndsWith(Lower(path), key)
    ensures forall k :: 0 <= k < |key| ==> !IsSeparator(key[k]) && !IsUpper(key[k])
  {
    var name := BaseName(path);
    LowerSuffix(path, |path| - |name|);
    Lower(name)
  }

  /** A manifest file name is in the folder when some eligible folder file
      has it as its name, ignoring case. */
  predicate InFolder(fileName: string, listing: seq<string>) {
    exists p :: p in listing && IsEligible(p) && Lower(fileName) == MatchKey(p)
  }

  /** The lower-cased names of the folder's eligible files. */
  function FolderKeys(listing: seq<string>): (keys: seq<string>)
    ensures forall k :: k in keys <==> exists p :: p in listing && IsEligible(p) && k == MatchKey(p)
    decreases |listing|
  {
    if |listing| == 0 then []
    else
      var rest := FolderKeys(listing[1..]);
      assert forall p :: p in listing <==> p == listing[0] || p in listing[1..];
      if IsEligible(listing[0]) then [MatchKey(listing[0])] + rest else rest
  }

  /** The status a row is loaded with: one the run selects exactly when the
      lower-cased file name is among the folder's keys. */
  function InitialStatus(fileName: string, keys: seq<string>): (status: string)
    ensures status == Pending || status == NotFound
    ensures StartsWith(status, Pending) <==> Lower(fileName) in keys
  {
    TerminalStatusesNotPending("");
    if Lower(fileName) in keys then Pending else NotFound
  }

  /** One entry per manifest row, in manifest order, each pending exactly
      when its file is in the folder and not found otherwise. */
  function Reconcile(rows: seq<Metadata>, listing: seq<string>): (store: seq<ImageInfo>)
    ensures |store| == |rows|
    ensures forall i :: 0 <= i < |rows| ==> store[i].meta == rows[i]
    ensures forall i :: 0 <= i < |rows| ==>
              store[i].status == (if InFolder(rows[i].fileName, listing) then Pending else NotFound)
  {
    var keys := FolderKeys(listing);
    seq(|rows|, i requires 0 <= i < |rows| => ImageInfo(rows[i], InitialStatus(rows[i].fileName, keys)))
  }

  /** What the manifest reader delivered: the rows it bound before stopping,
      and the message of the exception that stopped it early, if any. */
  datatype ManifestRead = ManifestRead(rows: seq<Metadata>, stoppedBy: Option<string>)

  /** The new store, and the message shown to the operator if the load failed. */
  datatype LoadResult = LoadResult(store: seq<ImageInfo>, error: Option<string>)

  /** A load. The store is cleared first; a manifest that cannot be opened or
      a folder that cannot be enumerated leaves it empty; otherwise every row
      read is added, in order, so a reader that stops part-way leaves the rows
      before the failure in the store. `manifest` is tried before `listing`. */
  function Load(manifest: Result<ManifestRead>, listing: Result<seq<string>>): (r: LoadResult)
    ensures manifest.Err? ==> r == LoadResult([], Some(manifest.message))
    ensures manifest.Ok? && listing.Err? ==> r == LoadResult([], Some(listing.message))
    ensures manifest.Ok? && listing.Ok? ==>
              && r.error == manifest.value.stoppedBy
              && |r.store| == |manifest.value.rows|
              && (forall i :: 0 <= i < |r.store| ==> r.store[i].meta == manifest.value.rows[i])
              && (forall i :: 0 <= i < |r.store| ==>
                    r.store[i].status == (if InFolder(r.store[i].meta.fileName, listing.value) then Pending else NotFound))
  {
    match manifest
    case Err(m) => LoadResult([], Some(m))
    case Ok(read) =>
      match listing
      case Err(m) => LoadResult([], Some(m))
      case Ok(files) => LoadResult(Reconcile(read.rows, files), read.stoppedBy)
  }

  /** Paths that agree up to letter case qualify alike and give the same key. */
  lemma KeyIgnoresCase(p: string, q: string)
    requires EqualIgnoringCase(p, q)
    ensures IsEligible(p) == IsEligible(q)
    ensures MatchKey(p) == MatchKey(q)
  {
    BaseNameLower(p);
    BaseNameLower(q);
  }

  /** Changing the letter case of the manifest's file names changes no status. */
  lemma ReconcileIgnoresFileNameCase(rows: seq<Metadata>, rows': seq<Metadata>, listing: seq<string>)
    requires |rows| == |rows'|
    requires forall i :: 0 <= i < |rows| ==> EqualIgnoringCase(rows[i].fileName, rows'[i].fileName)
    ensures forall i :: 0 <= i < |rows| ==> Reconcile(rows, listing)[i].status == Reconcile(rows', listing)[i].status
  {
  }

  /** Changing the letter case of the folder's paths changes no status. */
  lemma ReconcileIgnoresFolderCase(rows: seq<Metadata>, listing: seq<string>, listing': seq<string>)
    requires |listing| == |listing'|
    requires forall j :: 0 <= j < |listing| ==> EqualIgnoringCase(listing[j], listing'[j])
    ensures Reconcile(rows, listing) == Reconcile(rows, listing')
  {
    forall f: string
      ensures InFolder(f, listing) <==> InFolder(f, listing')
    {
      if InFolder(f, listing) {
        var p :| p in listing && IsEligible(p) && Lower(f) == MatchKey(p);
        var j :| 0 <= j < |listing| && listing[j] == p;
        KeyIgnoresCase(p, listing'[j]);
      }
      if InFolder(f, listing') {
        var p :| p in listing' && IsEligible(p) && Lower(f) == MatchKey(p);
        var j :| 0 <= j < |listing'| && listing'[j] == p;
        KeyIgnoresCase(listing[j], p);
      }
    }
  }

  /** A folder file that does not qualify (`.jpeg`, `.gif`, ...) never
      causes a match: adding it anywhere in the listing changes nothing. */
  lemma IneligibleFileIgnored(rows: seq<Metadata>, listing: seq<string>, p: string, k: nat)
    requires k <= |listing|
    requires !IsEligible(p)
    ensures Reconcile(rows, listing[..k] + [p] + listing[k..]) == Reconcile(rows, listing)
  {
    var listing' := listing[..k] + [p] + listing[k..];
    forall q | q in listing' && q != p
      ensures q in listing
    {
    }
    assert forall q :: q in listing ==> q in listing' by {
      assert listing == listing[..k] + listing[k..];
    }
    forall f: string
      ensures InFolder(f, listing) <==> InFolder(f, listing')
    {
    }
  }

  /** The key of an eligible path keeps the whole extension. */
  lemma EligibleKeyLength(p: string)
    requires IsEligible(p)
    ensures |MatchKey(p)| >= 4
  {
    var l := Lower(p);
    assert l[|l| - 4..] == ".png" || l[|l| - 4..] == ".jpg";
    assert forall k :: |l| - 4 <= k < |l| ==> l[k] == l[|l| - 4..][k - (|l| - 4)];
    BaseNameKeepsTail(l, 4);
    BaseNameLower(p);
  }

  /** A name found in the folder is a bare file name of at least four
      characters (the eligible extension): it has no separator, so it is
      neither empty nor rooted, and combining it with the folder is the
      plain join. */
  lemma FoundNameIsBare(fileName: string, listing: seq<string>)
    requires InFolder(fileName, listing)
    ensures |fileName| >= 4
    ensures forall k :: 0 <= k < |fileName| ==> !IsSeparator(fileName[k])
  {
    var p :| p in listing && IsEligible(p) && Lower(fileName) == MatchKey(p);
    EligibleKeyLength(p);
    var key := MatchKey(p);
    forall k | 0 <= k < |fileName|
      ensures !IsSeparator(fileName[k])
    {
      assert key[k] == LowerChar(fileName[k]);
      LowerKeepsSeparators(fileName[k]);
    }
  }

  /** A row named `Photo.JPG` matches the folder file `photo.jpg`. */
  lemma MixedCaseMatches(m: Metadata)
    requires m.fileName == "Photo.JPG"
    ensures Reconcile([m], ["C:\\pics\\photo.jpg"])[0].status == Pending
  {
    var p := "C:\\pics\\photo.jpg";
    SamplePathFacts();
    assert Lower("Photo.JPG") == "photo.jpg";
    assert p in [p];
    assert InFolder(m.fileName, [p]);
  }

  // The helpers below only break the example's facts into steps small
  // enough for the solver.

  lemma SamplePathFacts()
    ensures IsEligible("C:\\pics\\photo.jpg")
    ensures MatchKey("C:\\pics\\photo.jpg") == "photo.jpg"
  {
    SamplePathLower();
    SamplePathBaseName();
    assert Lower("photo.jpg") == "photo.jpg";
  }

  lemma SamplePathLower()
    ensures Lower("C:\\pics\\photo.jpg") == "c:\\pics\\photo.jpg"
  {
  }

  lemma SamplePathBaseName()
    ensures BaseName("C:\\pics\\photo.jpg") == "photo.jpg"
  {
    BaseNameOfSeparated("C:\\pics\\", "photo.jpg");
    assert "C:\\pics\\" + "photo.jpg" == "C:\\pics\\photo.jpg";
  }

  /** A `.jpeg` file is not a candidate even when the row names it exactly. */
  lemma JpegNeverMatches(m: Metadata)
    requires m.fileName == "photo.jpeg"
    ensures Reconcile([m], ["C:\\pics\\photo.jpeg"])[0].status == NotFound
  {
    var p := "C:\\pics\\photo.jpeg";
    var l := Lower(p);
    assert l[|l| - 4..] == "jpeg";
    assert !IsEligible(p);
  }
}

=== FILE: paths.dfy ===
/** The two `System.IO.Path` operations the view model relies on, reduced to
    their string behaviour on Windows-style paths. */
module Paths {
  import opened Text

  /** Directory, alternate directory and volume separators. */
  predicate IsSeparator(c: char) {
    c == '\\' || c == '/' || c == ':'
  }

  /** `Path.GetFileName`: the longest suffix of `path` free of separators. */
  function BaseName(path: string): (r: string)
    ensures EndsWith(path, r)
    ensures forall k :: 0 <= k < |r| ==> !IsSeparator(r[k])
    ensures |r| == |path| || IsSeparator(path[|path| - |r| - 1])
    decreases |path|
  {
    if |path| == 0 || IsSeparator(path[|path| - 1]) then ""
    else BaseName(path[..|path| - 1]) + [path[|path| - 1]]
  }

  /** `Path.Combine(folder, name)` for a relative `name`: a separator is put
      between the two unless the folder is empty or already ends with one. */
  function Combine(folder: string, name: string): (r: string)
    ensures EndsWith(r, name)
    ensures StartsWith(r, folder)
  {
    if |folder| == 0 || IsSeparator(folder[|folder| - 1]) then folder + name
    else folder + "\\" + name
  }

  /** Combining and taking the file name back are inverse: the file name of
      `Combine(folder, name)` is `name` whenever `name` is a bare file name. */
  lemma {:induction false} BaseNameOfCombine(folder: string, name: string)
    requires forall k :: 0 <= k < |name| ==> !IsSeparator(name[k])
    ensures BaseName(Combine(folder, name)) == name
  {
    var p := Combine(folder, name);
    assert p[..|p| - |name|] == (if |folder| == 0 || IsSeparator(folder[|folder| - 1]) then folder else folder + "\\");
    BaseNameOfSeparated(p[..|p| - |name|], name);
    assert p == p[..|p| - |name|] + name;
  }

  lemma {:induction false} BaseNameOfSeparated(dir: string, name: string)
    requires |dir| == 0 || IsSeparator(dir[|dir| - 1])
    requires forall k :: 0 <= k < |name| ==> !IsSeparator(name[k])
    ensures BaseName(dir + name) == name
    decreases |name|
  {
    if |name| == 0 {
      assert dir + name == dir;
    } else {
      var p := dir + name;
      assert p[..|p| - 1] == dir + name[..|name| - 1];
      BaseNameOfSeparated(dir, name[..|name| - 1]);
      assert name == name[..|name| - 1] + [name[|name| - 1]];
    }
  }

  /** A path whose last `n` characters are not separators has a file name
      of at least `n` characters. */
  lemma {:induction false} BaseNameKeepsTail(path: string, n: nat)
    requires n <= |path|
    requires forall k :: |path| - n <= k < |path| ==> !IsSeparator(path[k])
    ensures |BaseName(path)| >= n
    decreases n
  {
    if n > 0 {
      var init := path[..|path| - 1];
      assert forall k :: |init| - (n - 1) <= k < |init| ==> init[k] == path[k];
      BaseNameKeepsTail(init, n - 1);
    }
  }

  /** No separator is a letter, so case folding neither makes nor removes one. */
  lemma LowerKeepsSeparators(c: char)
    ensures IsSeparator(LowerChar(c)) <==> IsSeparator(c)
  {
  }

  /** Case folding commutes with taking the file name, since no separator is
      a letter. */
  lemma {:induction false} BaseNameLower(path: string)
    ensures Lower(BaseName(path)) == BaseName(Lower(path))
    decreases |path|
  {
    if |path| > 0 {
      var c := path[|path| - 1];
      var init := path[..|path| - 1];
      SplitLast(path);
      if IsSeparator(c) {
        LowerKeepsSeparators(c);
        assert Lower(path)[|path| - 1] == LowerChar(c);
      } else {
        BaseNameLower(init);
        BaseNameLowerStep(init, c);
      }
    }
  }

  lemma SplitLast<T>(s: seq<T>)
    requires |s| > 0
    ensures s == s[..|s| - 1] + [s[|s| - 1]]
  {
  }

  /** The step of `BaseNameLower` past a last character that is not a
      separator. */
  lemma BaseNameLowerStep(init: string, c: char)
    requires !IsSeparator(c)
    requires Lower(BaseName(init)) == BaseName(Lower(init))
    ensures Lower(BaseName(init + [c])) == BaseName(Lower(init + [c]))
  {
    LowerKeepsSeparators(c);
    BaseNameSnoc(init, c);
    LowerSnoc(BaseName(init), c);
    LowerSnoc(init, c);
    BaseNameSnoc(Lower(init), LowerChar(c));
  }

  /** A character that is not a separator extends the file name. */
  lemma BaseNameSnoc(s: string, c: char)
    requires !IsSeparator(c)
    ensures BaseName(s + [c]) == BaseName(s) + [c]
  {
    assert (s + [c])[..|s|] == s;
  }
}

=== FILE: results.dfy ===
/** Failure-carrying wrappers for the steps whose exceptions the model keeps:
    opening the manifest, enumerating the folder, running the external tool. */
module Results {

  datatype Option<+T> = None | Some(value: T)

  /** A value, or the message of the exception that prevented it. */
  datatype Result<+T> = Ok(value: T) | Err(message: string)
}

=== FILE: shell.dfy ===
/** The view model's state and its three operations on the core: choosing a
    folder (which loads the manifest against it), the run guard, and the run. */
module Shell {
  import opened Text
  import opened Results
  import opened Images
  import Paths
  import Matcher
  import Batch

  /** The chosen manifest path, the chosen folder, the entries shown in the
      grid, and the log text. A log that was never written is empty. */
  datatype ViewModel = ViewModel(inputCsv: string, inputFolder: string, images: seq<ImageInfo>, logs: string)

  /** A view model and the message of the error dialog it shows, if any. */
  datatype Shown = Shown(vm: ViewModel, dialog: Option<string>)

  /** The run command is enabled exactly when the grid is not empty. */
  predicate CanRun(vm: ViewModel) {
    |vm.images| > 0
  }

  /** `ChooseFolder` once the operator picked `folder`: the folder is
      recorded and the store is reloaded from the manifest and the folder's
      listing; a load error is shown in a dialog. The log is untouched. */
  function ChooseFolder(vm: ViewModel, folder: string, manifest: Result<Matcher.ManifestRead>,
                        listing: Result<seq<string>>): (r: Shown)
    ensures r.vm.inputCsv == vm.inputCsv && r.vm.inputFolder == folder && r.vm.logs == vm.logs
    ensures manifest.Err? || listing.Err? ==> r.vm.images == [] && r.dialog.Some?
    ensures manifest.Ok? && listing.Ok? ==>
              |r.vm.images| == |manifest.value.rows| && r.dialog == manifest.value.stoppedBy
  {
    var loaded := Matcher.Load(manifest, listing);
    Shown(vm.(inputFolder := folder, images := loaded.store), loaded.error)
  }

  /** `DoRun`: one run over the store with the folder chosen last. The log
      only grows; the store keeps its entries and their manifest fields,
      entries the run does not select are kept as they were, and no entry
      is left selected. */
  function DoRun(vm: ViewModel, tool: Batch.Tool): (r: ViewModel)
    ensures r.inputCsv == vm.inputCsv && r.inputFolder == vm.inputFolder
    ensures StartsWith(r.logs, vm.logs)
    ensures |r.images| == |vm.images|
    ensures forall i :: 0 <= i < |vm.images| ==> r.images[i].meta == vm.images[i].meta
    ensures forall i :: 0 <= i < |vm.images| && !IsPending(vm.images[i]) ==> r.images[i] == vm.images[i]
    ensures forall i :: 0 <= i < |vm.images| ==> !IsPending(r.images[i])
  {
    var run := Batch.Run(vm.images, vm.inputFolder, tool);
    vm.(images := run.store, logs := vm.logs + run.log)
  }

  /** A reload replaces the store wholesale: what is in the grid afterwards
      depends only on the manifest and the listing, never on the entries
      shown before. */
  lemma ReloadReplacesStore(vm: ViewModel, vm': ViewModel, folder: string,
                            manifest: Result<Matcher.ManifestRead>, listing: Result<seq<string>>)
    ensures ChooseFolder(vm, folder, manifest, listing).vm.images == ChooseFolder(vm', folder, manifest, listing).vm.images
  {
  }

  /** After a load the run is enabled exactly when the manifest and the folder
      could be read and at least one row was read. */
  lemma CanRunAfterLoad(vm: ViewModel, folder: string,
                        manifest: Result<Matcher.ManifestRead>, listing: Result<seq<string>>)
    ensures CanRun(ChooseFolder(vm, folder, manifest, listing).vm)
        <==> manifest.Ok? && listing.Ok? && |manifest.value.rows| > 0
  {
  }

  /** After a load, every entry is the row at its position, pending exactly
      when its file is in the folder. */
  lemma LoadedEntries(vm: ViewModel, folder: string, read: Matcher.ManifestRead, files: seq<string>, i: nat)
    requires i < |read.rows|
    ensures var images := ChooseFolder(vm, folder, Ok(read), Ok(files)).vm.images;
            && i < |images|
            && images[i].meta == read.rows[i]
            && (IsPending(images[i]) <==> Matcher.InFolder(read.rows[i].fileName, files))
  {
    var images := ChooseFolder(vm, folder, Ok(read), Ok(files)).vm.images;
    TerminalStatusesNotPending("");
    assert StartsWith(Pending, Pending);
    assert images[i].status == (if Matcher.InFolder(read.rows[i].fileName, files) then Pending else NotFound);
  }

  /** A second run changes nothing, not even the log. */
  lemma DoRunTwice(vm: ViewModel, tool: Batch.Tool, tool': Batch.Tool)
    ensures DoRun(DoRun(vm, tool), tool') == DoRun(vm, tool)
  {
    Batch.RunTwice(vm.images, vm.inputFolder, tool, tool');
    var once := DoRun(vm, tool);
    assert once.logs + "" == once.logs;
  }

  /** With the run disabled, running changes nothing. */
  lemma DoRunDisabled(vm: ViewModel, tool: Batch.Tool)
    requires !CanRun(vm)
    ensures DoRun(vm, tool) == vm
  {
    assert vm.logs + "" == vm.logs;
  }

  /** The log text a run appends: for each selected entry in store order,
      its `Processing` line and what the tool printed. */
  lemma DoRunLog(vm: ViewModel, tool: Batch.Tool)
    ensures DoRun(vm, tool).logs
         == vm.logs + Concat(Batch.EntryLogs(Batch.PendingEntries(vm.images), vm.inputFolder, tool, 0))
  {
    Batch.RunLog(vm.images, vm.inputFolder, tool, 0);
  }

  /** A selected entry's file: the path the run logs and hands to the tool
      starts with the folder, and its file name is the row's own. */
  lemma TargetOfFoundRow(folder: string, e: ImageInfo, listing: seq<string>)
    requires Matcher.InFolder(e.meta.fileName, listing)
    ensures StartsWith(Batch.TargetPath(folder, e), folder)
    ensures Paths.BaseName(Batch.TargetPath(folder, e)) == e.meta.fileName
  {
    Matcher.FoundNameIsBare(e.meta.fileName, listing);
    Batch.TargetPathNamesFile(folder, e);
  }

  /** The two manifest rows of the worked example. */
  function Row(fileName: string): Metadata {
    Metadata(fileName, "", "Sunset", "Beach", "5", "sea, sky", "nice", "10.5", "20.25", "Ann")
  }

  const Folder: string := "C:\\pics"
  const Img1: string := "C:\\pics\\img1.jpg"

  /** Loading rows `img1.jpg` and `img2.jpg` against a folder holding only
      `img1.jpg` gives a pending and a not-found entry. */
  lemma ExampleLoad(vm: ViewModel)
    ensures ChooseFolder(vm, Folder, Ok(Matcher.ManifestRead([Row("img1.jpg"), Row("img2.jpg")], None)), Ok([Img1])).vm.images
         == [ImageInfo(Row("img1.jpg"), Pending), ImageInfo(Row("img2.jpg"), NotFound)]
  {
    ExampleFound();
    LoadTwoRows(vm, Folder, Row("img1.jpg"), Row("img2.jpg"), [Img1]);
  }

  /** A two-row manifest read in full loads as two entries. */
  lemma LoadTwoRows(vm: ViewModel, folder: string, a: Metadata, b: Metadata, files: seq<string>)
    ensures ChooseFolder(vm, folder, Ok(Matcher.ManifestRead([a, b], None)), Ok(files)).vm.images
         == [ImageInfo(a, if Matcher.InFolder(a.fileName, files) then Pending else NotFound),
             ImageInfo(b, if Matcher.InFolder(b.fileName, files) then Pending else NotFound)]
  {
  }

  // ExampleFound and the helpers after it only break the example's facts
  // into steps small enough for the solver.

  lemma ExampleFound()
    ensures Matcher.InFolder("img1.jpg", [Img1])
    ensures !Matcher.InFolder("img2.jpg", [Img1])
  {
    ExampleKeys();
    assert Img1 in [Img1];
    forall p | p in [Img1]
      ensures Matcher.MatchKey(p) != Lower("img2.jpg")
    {
      assert p == Img1;
    }
  }

  lemma ExampleKeys()
    ensures Matcher.IsEligible(Img1)
    ensures Matcher.MatchKey(Img1) == "img1.jpg"
    ensures Lower("img1.jpg") == "img1.jpg"
    ensures Lower("img2.jpg") == "img2.jpg"
  {
    ExampleLower();
    ExampleBaseName();
    ExampleNames();
  }

  lemma ExampleNames()
    ensures Lower("img1.jpg") == "img1.jpg"
    ensures Lower("img2.jpg") == "img2.jpg"
  {
  }

  lemma ExampleLower()
    ensures Lower(Img1) == "c:\\pics\\img1.jpg"
  {
  }

  lemma ExampleBaseName()
    ensures Paths.BaseName(Img1) == "img1.jpg"
  {
    Paths.BaseNameOfSeparated("C:\\pics\\", "img1.jpg");
    assert "C:\\pics\\" + "img1.jpg" == Img1;
  }

  /** Running on that store invokes the tool once, for `img1.jpg` only: a
      tool that exits leaves it `SUCCESS`, a tool that fails leaves it
      `ERROR - <message>`; `img2.jpg` stays not found, and the log holds the
      one `Processing` line followed by whatever output was read. */
  lemma ExampleRun(vm: ViewModel, o: Batch.ToolOutcome)
    requires vm.inputFolder == Folder && vm.logs == ""
    requires vm.images == [ImageInfo(Row("img1.jpg"), Pending), ImageInfo(Row("img2.jpg"), NotFound)]
    ensures var r := DoRun(vm, (n: nat, c: Batch.Call) => o);
            && r.images == [ImageInfo(Row("img1.jpg"), Batch.StatusAfter(o)), ImageInfo(Row("img2.jpg"), NotFound)]
            && r.logs == Batch.EntryLog(Img1, o)
  {
    var tool := (n: nat, c: Batch.Call) => o;
    var store := vm.images;
    TerminalStatusesNotPending("");
    assert IsPending(store[0]) && !IsPending(store[1]);
    assert Batch.TargetPath(Folder, store[0]) == Img1;
    Batch.RunWithoutPending(store[1..], Folder, tool, 1);
    assert [] + [store[1]] == [store[1]];
  }
}

=== FILE: tagging.dfy ===
/** Building the external tool's command line for one entry (`UpdateMeta`):
    the tags column is split on commas into trimmed keywords, and the record's
    fields and the target path are interpolated into one argument string,
    without any escaping. */
module Tagging {
  import opened Text
  import opened Images
  import CommandLine

  /** The keywords of a tags column: the comma-separated pieces, trimmed. */
  function TagList(tags: string): seq<string> {
    var pieces := Split(tags, ',');
    seq(|pieces|, k requires 0 <= k < |pieces| => Trim(pieces[k]))
  }

  /** One keyword per comma: the keywords are the trims of comma-free pieces
      that join back, with commas, into the column. */
  lemma TagListSplitsOnCommas(tags: string)
    ensures |TagList(tags)| == Count(tags, ',') + 1
    ensures exists pieces: seq<string> ::
              && |pieces| == |TagList(tags)|
              && Join(pieces, ',') == tags
              && (forall k :: 0 <= k < |pieces| ==> ',' !in pieces[k])
              && (forall k :: 0 <= k < |pieces| ==> TagList(tags)[k] == Trim(pieces[k]))
  {
    SplitJoin(tags, ',');
    var pieces := Split(tags, ',');
    assert && |pieces| == |TagList(tags)|
           && Join(pieces, ',') == tags
           && (forall k :: 0 <= k < |pieces| ==> ',' !in pieces[k])
           && (forall k :: 0 <= k < |pieces| ==> TagList(tags)[k] == Trim(pieces[k]));
  }

  /** Those pieces are the only ones: whatever comma-free pieces join into
      the column, the keywords are their trims, in order. For instance
      `a, b ,c` gives `a`, `b`, `c`, and `a,,b` gives an empty keyword
      between `a` and `b`. */
  lemma TagListOfPieces(tags: string, pieces: seq<string>)
    requires |pieces| > 0
    requires forall k :: 0 <= k < |pieces| ==> ',' !in pieces[k]
    requires Join(pieces, ',') == tags
    ensures |TagList(tags)| == |pieces|
    ensures forall k :: 0 <= k < |pieces| ==> TagList(tags)[k] == Trim(pieces[k])
  {
    JoinSplit(pieces, ',');
    assert Split(tags, ',') == pieces;
  }

  /** The blanks around a keyword are dropped: `a, b ,c` gives `a`, `b`, `c`. */
  lemma TagListExample()
    ensures TagList("a, b ,c") == ["a", "b", "c"]
  {
    ExamplePieces();
    TagListOfThree("a", " b ", "c", "a, b ,c");
    ExampleTrims();
  }

  /** An empty piece gives an empty keyword: `a,,b` gives `a`, ``, `b`. */
  lemma TagListEmptyExample()
    ensures TagList("a,,b") == ["a", "", "b"]
  {
    ExamplePieces();
    TagListOfThree("a", "", "b", "a,,b");
    TrimFixedPoint("a");
    TrimFixedPoint("");
    TrimFixedPoint("b");
  }

  // The helpers below only break the examples into steps small enough for
  // the solver.

  lemma ExamplePieces()
    ensures "a, b ,c" == "a" + [','] + " b " + [','] + "c"
    ensures "a,,b" == "a" + [','] + "" + [','] + "b"
    ensures ',' !in "a" && ',' !in " b " && ',' !in "c" && ',' !in "" && ',' !in "b"
  {
  }

  lemma ExampleTrims()
    ensures Trim("a") == "a" && Trim(" b ") == "b" && Trim("c") == "c"
  {
    ExampleTrimA();
    ExampleTrimB();
    ExampleTrimC();
  }

  lemma ExampleTrimA()
    ensures Trim("a") == "a"
  {
    TrimFixedPoint("a");
  }

  lemma ExampleTrimC()
    ensures Trim("c") == "c"
  {
    TrimFixedPoint("c");
  }

  lemma ExampleTrimB()
    ensures Trim(" b ") == "b"
  {
    assert " b " == " " + "b" + " ";
    TrimBlanks("b", " b ");
  }

  /** Three comma-free pieces give their three trims. */
  lemma TagListOfThree(x: string, y: string, z: string, s: string)
    requires ',' !in x && ',' !in y && ',' !in z
    requires s == x + [','] + y + [','] + z
    ensures TagList(s) == [Trim(x), Trim(y), Trim(z)]
  {
    JoinThree(x, y, z, s);
    TagListOfJoin(s, [x, y, z]);
    SeqOfThree(TagList(s), Trim(x), Trim(y), Trim(z));
  }

  lemma JoinThree(x: string, y: string, z: string, s: string)
    requires ',' !in x && ',' !in y && ',' !in z
    requires s == x + [','] + y + [','] + z
    ensures Join([x, y, z], ',') == s
    ensures forall k :: 0 <= k < 3 ==> ',' !in [x, y, z][k]
  {
    JoinCons(x, [y, z], ',');
    JoinCons(y, [z], ',');
    assert [x, y, z] == [x] + [y, z] && [y, z] == [y] + [z];
  }

  lemma TagListOfJoin(s: string, pieces: seq<string>)
    requires |pieces| == 3 && Join(pieces, ',') == s
    requires forall k :: 0 <= k < 3 ==> ',' !in pieces[k]
    ensures |TagList(s)| == 3
    ensures TagList(s)[0] == Trim(pieces[0]) && TagList(s)[1] == Trim(pieces[1]) && TagList(s)[2] == Trim(pieces[2])
  {
    TagListOfPieces(s, pieces);
  }

  lemma SeqOfThree<T>(ts: seq<T>, a: T, b: T, c: T)
    requires |ts| == 3 && ts[0] == a && ts[1] == b && ts[2] == c
    ensures ts == [a, b, c]
  {
  }

  /** A word with one blank on either side trims to the word. */
  lemma TrimBlanks(w: string, s: string)
    requires |w| > 0 && !IsWhiteSpace(w[0]) && !IsWhiteSpace(w[|w| - 1])
    requires s == " " + w + " "
    ensures Trim(s) == w
  {
    assert s[1..] == w + " ";
    assert TrimStart(s) == TrimStart(w + " ");
    assert TrimStart(w + " ") == w + " ";
    assert (w + " ")[..|w|] == w;
    assert TrimEnd(w + " ") == TrimEnd(w);
  }

  /** Every character of a keyword comes from the tags column. */
  lemma TagListChars(tags: string)
    ensures forall k, c :: 0 <= k < |TagList(tags)| && c in TagList(tags)[k] ==> c in tags
  {
    var pieces := Split(tags, ',');
    forall k, c | 0 <= k < |pieces| && c in Trim(pieces[k])
      ensures c in tags
    {
      assert c in pieces[k];
    }
  }

  /** The option a single keyword contributes, with its trailing space. */
  function KeywordOption(t: string): string {
    "-keywords=\"" + t + "\" "
  }

  /** The keyword options, concatenated in order. */
  function KeywordOptions(ts: seq<string>): string
    decreases |ts|
  {
    if |ts| == 0 then "" else KeywordOption(ts[0]) + KeywordOptions(ts[1..])
  }

  /** The argument string passed to the tool for the record `m` and the
      target file `path`: the interpolation of the fields, the keyword block
      and the quoted path into one fixed template. */
  function BuildArguments(m: Metadata, path: string): string {
    "-title=\"" + m.title + "\" -XPComment=" + m.comments + " " + KeywordOptions(TagList(m.tags))
    + " -author=\"" + m.author + "\" -XPSubject=\"" + m.subject + "\" -rating=" + m.rating
    + " -exif:GPSLatitude=" + m.latitude + " -exif:GPSLongitude=" + m.longitude + " \"" + path + "\""
  }

  /** The argument string grouped from the right, the shape in which the
      parser reads it: each option followed by the rest of the line. */
  lemma BuildArgumentsFromRight(m: Metadata, path: string)
    ensures BuildArguments(m, path)
         == "-title=\"" + (m.title + ("\" -XPComment=" + (m.comments + (" " + (KeywordOptions(TagList(m.tags))
            + (" -author=\"" + (m.author + ("\" -XPSubject=\"" + (m.subject + ("\" -rating=" + (m.rating
            + (" -exif:GPSLatitude=" + (m.latitude + (" -exif:GPSLongitude=" + (m.longitude
            + (" \"" + (path + "\"")))))))))))))))))
  {
    Regroup("-title=\"", m.title, "\" -XPComment=", m.comments, " ", KeywordOptions(TagList(m.tags)),
            " -author=\"", m.author, "\" -XPSubject=\"", m.subject, "\" -rating=", m.rating,
            " -exif:GPSLatitude=", m.latitude, " -exif:GPSLongitude=", m.longitude, " \"", path, "\"");
  }

  /** Concatenation of the template's nineteen pieces, regrouped from the
      right. Stated over arbitrary pieces because regrouping the literals
      themselves is beyond the solver's budget. */
  lemma Regroup<T>(x1: seq<T>, x2: seq<T>, x3: seq<T>, x4: seq<T>, x5: seq<T>, x6: seq<T>, x7: seq<T>,
                   x8: seq<T>, x9: seq<T>, x10: seq<T>, x11: seq<T>, x12: seq<T>, x13: seq<T>,
                   x14: seq<T>, x15: seq<T>, x16: seq<T>, x17: seq<T>, x18: seq<T>, x19: seq<T>)
    ensures x1 + x2 + x3 + x4 + x5 + x6 + x7 + x8 + x9 + x10 + x11 + x12 + x13 + x14 + x15 + x16 + x17 + x18 + x19
         == x1 + (x2 + (x3 + (x4 + (x5 + (x6 + (x7 + (x8 + (x9 + (x10 + (x11 + (x12 + (x13 + (x14 + (x15
            + (x16 + (x17 + (x18 + x19)))))))))))))))))
  {
  }

  /** One `-keywords=` argument per keyword, in order. */
  function KeywordArgs(ts: seq<string>): seq<string>
    decreases |ts|
  {
    if |ts| == 0 then [] else ["-keywords=" + ts[0]] + KeywordArgs(ts[1..])
  }

  /** The arguments, one per option, as the tool is meant to receive them. */
  function IntendedArguments(m: Metadata, path: string): seq<string> {
    var ts := TagList(m.tags);
    ["-title=" + m.title, "-XPComment=" + m.comments]
    + KeywordArgs(ts)
    + ["-author=" + m.author, "-XPSubject=" + m.subject, "-rating=" + m.rating,
       "-exif:GPSLatitude=" + m.latitude, "-exif:GPSLongitude=" + m.longitude, path]
  }

  /** Values the unescaped interpolation passes through intact: no double
      quote anywhere, and no blank in the values that are not quoted. Quoted
      values must not end in a backslash, which the command-line parser would
      pair with the closing quote. */
  predicate Clean(m: Metadata, path: string) {
    && CommandLine.NoQuote(m.title) && CommandLine.NoQuote(m.author)
    && CommandLine.NoQuote(m.subject) && CommandLine.NoQuote(m.tags)
    && CommandLine.NoQuote(path)
    && CommandLine.Bare(m.comments) && CommandLine.Bare(m.rating)
    && CommandLine.Bare(m.latitude) && CommandLine.Bare(m.longitude)
    && !EndsWith(m.title, "\\") && !EndsWith(m.author, "\\")
    && !EndsWith(m.subject, "\\") && !EndsWith(path, "\\")
    && (forall t :: t in TagList(m.tags) ==> !EndsWith(t, "\\"))
  }

  /** The keyword block is read as one `-keywords=` argument per keyword,
      for keywords that hold no quote and do not end in a backslash (which
      the command-line parser would pair with the closing quote). */
  lemma {:induction false} ScanKeywordOptions(args: seq<string>, ts: seq<string>)
    requires forall k :: 0 <= k < |ts| ==> CommandLine.NoQuote(ts[k]) && !EndsWith(ts[k], "\\")
    ensures CommandLine.Scan(CommandLine.Idle(args), KeywordOptions(ts)) == CommandLine.Idle(args + KeywordArgs(ts))
    decreases |ts|
  {
    var l0 := CommandLine.Idle(args);
    if |ts| == 0 {
      assert args + [] == args;
    } else {
      var head := ["-keywords=" + ts[0]];
      assert CommandLine.Scan(l0, KeywordOption(ts[0])) == CommandLine.Idle(args + head) by {
        assert KeywordOption(ts[0]) == "-keywords=" + "\"" + ts[0] + "\" ";
        CommandLine.ScanQuoted(args, "-keywords=", ts[0]);
      }
      assert CommandLine.Scan(CommandLine.Idle(args + head), KeywordOptions(ts[1..]))
          == CommandLine.Idle(args + head + KeywordArgs(ts[1..])) by {
        ScanKeywordOptions(args + head, ts[1..]);
      }
      CommandLine.ScanAppend(l0, KeywordOption(ts[0]), KeywordOptions(ts[1..]));
      assert args + head + KeywordArgs(ts[1..]) == args + (head + KeywordArgs(ts[1..]));
    }
  }

  /** When the values are clean, the tool receives exactly the intended
      options in the fixed order title, comment, keywords, author, subject,
      rating, latitude, longitude, and last the target path. */
  lemma ArgumentsAsReceived(m: Metadata, path: string)
    requires Clean(m, path)
    ensures CommandLine.Arguments(BuildArguments(m, path)) == IntendedArguments(m, path)
  {
    var ts := TagList(m.tags);
    var kws := KeywordArgs(ts);
    var a1 := ["-title=" + m.title];
    var a3 := a1 + ["-XPComment=" + m.comments] + kws;
    var a5 := a3 + ["-author=" + m.author];
    var a6 := a5 + ["-XPSubject=" + m.subject];
    var a7 := a6 + ["-rating=" + m.rating];
    var a8 := a7 + ["-exif:GPSLatitude=" + m.latitude];
    var r15 := m.longitude + (" \"" + (path + "\""));
    var r13 := m.latitude + (" -exif:GPSLongitude=" + r15);
    var r11 := m.rating + (" -exif:GPSLatitude=" + r13);
    var r9 := m.subject + ("\" -rating=" + r11);
    var r7 := m.author + ("\" -XPSubject=\"" + r9);
    var r5 := KeywordOptions(ts) + (" -author=\"" + r7);
    var r3 := m.comments + (" " + r5);
    var r1 := m.title + ("\" -XPComment=" + r3);
    var E0 := CommandLine.Scan(CommandLine.Idle([]), BuildArguments(m, path));
    var E1 := CommandLine.Scan(CommandLine.Open([], "-title=" + m.title), "\" -XPComment=" + r3);
    var E2 := CommandLine.Scan(CommandLine.Word(a1, "-XPComment=" + m.comments), " " + r5);
    var E3 := CommandLine.Scan(CommandLine.Idle(a3), " -author=\"" + r7);
    var E4 := CommandLine.Scan(CommandLine.Open(a3, "-author=" + m.author), "\" -XPSubject=\"" + r9);
    var E5 := CommandLine.Scan(CommandLine.Open(a5, "-XPSubject=" + m.subject), "\" -rating=" + r11);
    var E6 := CommandLine.Scan(CommandLine.Word(a6, "-rating=" + m.rating), " -exif:GPSLatitude=" + r13);
    var E7 := CommandLine.Scan(CommandLine.Word(a7, "-exif:GPSLatitude=" + m.latitude), " -exif:GPSLongitude=" + r15);
    var E8 := CommandLine.Scan(CommandLine.Word(a8, "-exif:GPSLongitude=" + m.longitude), " \"" + (path + "\""));
    assert E0 == E1 by {
      BuildArgumentsFromRight(m, path);
      StepTitle(m.title, "\" -XPComment=" + r3);
    }
    assert E1 == E2 by {
      assert [] + ["-title=" + m.title] == a1;
      StepCloseThenWord([], "-title=" + m.title, "\" -XPComment=", "-XPComment=", m.comments, " " + r5);
    }
    assert E2 == E3 by {
      StepKeywords(a1, "-XPComment=" + m.comments, m.tags, " -author=\"" + r7);
    }
    assert E3 == E4 by {
      StepAuthor(a3, m.author, "\" -XPSubject=\"" + r9);
    }
    assert E4 == E5 by {
      StepSubject(a3, "-author=" + m.author, m.subject, "\" -rating=" + r11);
    }
    assert E5 == E6 by {
      StepCloseThenWord(a5, "-XPSubject=" + m.subject, "\" -rating=", "-rating=", m.rating, " -exif:GPSLatitude=" + r13);
    }
    assert E6 == E7 by {
      StepNextWord(a6, "-rating=" + m.rating, " -exif:GPSLatitude=", "-exif:GPSLatitude=", m.latitude, " -exif:GPSLongitude=" + r15);
    }
    assert E7 == E8 by {
      StepNextWord(a7, "-exif:GPSLatitude=" + m.latitude, " -exif:GPSLongitude=", "-exif:GPSLongitude=", m.longitude, " \"" + (path + "\""));
    }
    var tail := ["-author=" + m.author, "-XPSubject=" + m.subject, "-rating=" + m.rating,
                 "-exif:GPSLatitude=" + m.latitude, "-exif:GPSLongitude=" + m.longitude, path];
    assert CommandLine.Finish(E8) == a3 + tail by {
      StepPath(a8, "-exif:GPSLongitude=" + m.longitude, path);
      SeqTail(a3, "-author=" + m.author, "-XPSubject=" + m.subject, "-rating=" + m.rating,
              "-exif:GPSLatitude=" + m.latitude, "-exif:GPSLongitude=" + m.longitude, path);
    }
    assert a3 + tail == IntendedArguments(m, path) by {
      assert a1 + ["-XPComment=" + m.comments] == ["-title=" + m.title, "-XPComment=" + m.comments];
    }
  }

  /** Regroups the argument list's tail; a separate step for the solver's budget. */
  lemma SeqTail<T>(a: seq<T>, x1: T, x2: T, x3: T, x4: T, x5: T, x6: T)
    ensures a + [x1] + [x2] + [x3] + [x4] + [x5, x6] == a + [x1, x2, x3, x4, x5, x6]
  {
  }

  lemma StepTitle(v: string, r: string)
    requires CommandLine.NoQuote(v)
    ensures CommandLine.Scan(CommandLine.Idle([]), "-title=\"" + (v + r))
         == CommandLine.Scan(CommandLine.Open([], "-title=" + v), r)
  {
    assert "-title=\"" == "-title=" + "\"";
    CommandLine.ScanOpenOption([], "-title=");
    CommandLine.ScanAppend(CommandLine.Idle([]), "-title=\"", v + r);
    CommandLine.ScanAppend(CommandLine.Open([], "-title="), v, r);
    CommandLine.ScanValue(CommandLine.Open([], "-title="), v);
  }

  lemma StepKeywords(args: seq<string>, cur: string, tags: string, r: string)
    requires CommandLine.NoQuote(tags)
    requires forall t :: t in TagList(tags) ==> !EndsWith(t, "\\")
    ensures
      var ts := TagList(tags);
      CommandLine.Scan(CommandLine.Word(args, cur), " " + (KeywordOptions(ts) + r))
      == CommandLine.Scan(CommandLine.Idle(args + [cur] + KeywordArgs(ts)), r)
  {
    var ts := TagList(tags);
    TagListChars(tags);
    forall k | 0 <= k < |ts| ensures CommandLine.NoQuote(ts[k]) && !EndsWith(ts[k], "\\") {
      assert forall ch :: ch in ts[k] ==> ch in tags;
      assert ts[k] in ts;
    }
    CommandLine.ScanBlankEnds(args, cur);
    CommandLine.ScanAppend(CommandLine.Word(args, cur), " ", KeywordOptions(ts) + r);
    ScanKeywordOptions(args + [cur], ts);
    CommandLine.ScanAppend(CommandLine.Idle(args + [cur]), KeywordOptions(ts), r);
  }

  lemma StepAuthor(args: seq<string>, v: string, r: string)
    requires CommandLine.NoQuote(v)
    ensures CommandLine.Scan(CommandLine.Idle(args), " -author=\"" + (v + r))
         == CommandLine.Scan(CommandLine.Open(args, "-author=" + v), r)
  {
    assert " -author=\"" == " " + "-author=" + "\"";
    CommandLine.ScanBlankOpenOption(args, "-author=");
    CommandLine.ScanAppend(CommandLine.Idle(args), " -author=\"", v + r);
    CommandLine.ScanAppend(CommandLine.Open(args, "-author="), v, r);
    CommandLine.ScanValue(CommandLine.Open(args, "-author="), v);
  }

  lemma StepSubject(args: seq<string>, cur: string, v: string, r: string)
    requires CommandLine.NoQuote(v)
    ensures CommandLine.Scan(CommandLine.Open(args, cur), "\" -XPSubject=\"" + (v + r))
         == CommandLine.Scan(CommandLine.Open(args + [cur], "-XPSubject=" + v), r)
  {
    assert "\" -XPSubject=\"" == "\" " + "-XPSubject=" + "\"";
    CommandLine.ScanCloseThenOpen(args, cur, "-XPSubject=");
    CommandLine.ScanAppend(CommandLine.Open(args, cur), "\" -XPSubject=\"", v + r);
    CommandLine.ScanAppend(CommandLine.Open(args + [cur], "-XPSubject="), v, r);
    CommandLine.ScanValue(CommandLine.Open(args + [cur], "-XPSubject="), v);
  }

  /** A closing quote, then the comment or the rating option with its
      unquoted value. The option text is split into quote and name here,
      for the two options at once, because doing it in `ArgumentsAsReceived`
      exceeds the solver's budget. */
  lemma StepCloseThenWord(args: seq<string>, cur: string, option: string, name: string, v: string, r: string)
    requires (option, name) == ("\" -XPComment=", "-XPComment=") || (option, name) == ("\" -rating=", "-rating=")
    requires CommandLine.Bare(v)
    ensures CommandLine.Scan(CommandLine.Open(args, cur), option + (v + r))
         == CommandLine.Scan(CommandLine.Word(args + [cur], name + v), r)
  {
    if name == "-XPComment=" {
      assert option == "\" " + name;
    } else {
      assert option == "\" " + name;
    }
    CloseThenWordValue(args, cur, name, v, r);
  }

  /** A blank after an unquoted value, then the latitude or the longitude
      option with its unquoted value; split out as `StepCloseThenWord` is. */
  lemma StepNextWord(args: seq<string>, cur: string, option: string, name: string, v: string, r: string)
    requires (option, name) == (" -exif:GPSLatitude=", "-exif:GPSLatitude=")
          || (option, name) == (" -exif:GPSLongitude=", "-exif:GPSLongitude=")
    requires CommandLine.Bare(v)
    ensures CommandLine.Scan(CommandLine.Word(args, cur), option + (v + r))
         == CommandLine.Scan(CommandLine.Word(args + [cur], name + v), r)
  {
    if name == "-exif:GPSLatitude=" {
      assert option == " " + name;
    } else {
      assert option == " " + name;
    }
    NextWordValue(args, cur, name, v, r);
  }

  lemma StepPath(args: seq<string>, cur: string, path: string)
    requires CommandLine.NoQuote(path)
    ensures CommandLine.Finish(CommandLine.Scan(CommandLine.Word(args, cur), " \"" + (path + "\"")))
         == args + [cur, path]
  {
    var open := CommandLine.Open(args + [cur], "");
    CommandLine.ScanNextOpen(args, cur);
    CommandLine.ScanAppend(CommandLine.Word(args, cur), " \"", path + "\"");
    CommandLine.ScanAppend(open, path, "\"");
    CommandLine.ScanValue(open, path);
    assert "" + path == path;
    CommandLine.FinishClosed(args + [cur], path);
    assert args + [cur] + [path] == args + [cur, path];
  }

  /** `" name` then an unquoted value. */
  lemma CloseThenWordValue(args: seq<string>, cur: string, name: string, v: string, r: string)
    requires CommandLine.Bare(name) && |name| > 0 && CommandLine.Bare(v)
    ensures CommandLine.Scan(CommandLine.Open(args, cur), "\" " + name + (v + r))
         == CommandLine.Scan(CommandLine.Word(args + [cur], name + v), r)
  {
    var w := CommandLine.Word(args + [cur], name);
    CommandLine.ScanCloseThenWord(args, cur, name);
    CommandLine.ScanAppend(CommandLine.Open(args, cur), "\" " + name, v + r);
    CommandLine.ScanAppend(w, v, r);
    CommandLine.ScanValue(w, v);
  }

  /** ` name` then an unquoted value. */
  lemma NextWordValue(args: seq<string>, cur: string, name: string, v: string, r: string)
    requires CommandLine.Bare(name) && |name| > 0 && CommandLine.Bare(v)
    ensures CommandLine.Scan(CommandLine.Word(args, cur), " " + name + (v + r))
         == CommandLine.Scan(CommandLine.Word(args + [cur], name + v), r)
  {
    var w := CommandLine.Word(args + [cur], name);
    CommandLine.ScanNextWord(args, cur, name);
    CommandLine.ScanAppend(CommandLine.Word(args, cur), " " + name, v + r);
    CommandLine.ScanAppend(w, v, r);
    CommandLine.ScanValue(w, v);
  }
}

=== FILE: text.dfy ===
/** String helpers standing in for the .NET string methods the view model
    calls: `ToLower` (as ASCII case folding), `EndsWith`, `StartsWith`,
    `Trim` and `Split`. */
module Text {

  /** ASCII upper-case letter. */
  predicate IsUpper(c: char) {
    'A' <= c <= 'Z'
  }

  /** ASCII case folding of one character. */
  function LowerChar(c: char): (r: char)
    ensures !IsUpper(r)
    ensures r == c || (IsUpper(c) && r as int == c as int + 32)
  {
    if IsUpper(c) then (c as int + 32) as char else c
  }

  /** `s.ToLower()`, restricted to ASCII case folding. */
  function Lower(s: string): (r: string)
    ensures |r| == |s|
    ensures forall i :: 0 <= i < |s| ==> r[i] == LowerChar(s[i])
  {
    seq(|s|, i requires 0 <= i < |s| => LowerChar(s[i]))
  }

  /** Two strings that differ only in the letter case of ASCII letters. */
  predicate EqualIgnoringCase(s: string, t: string) {
    Lower(s) == Lower(t)
  }

  lemma LowerAppend(a: string, b: string)
    ensures Lower(a + b) == Lower(a) + Lower(b)
  {
  }

  lemma LowerSuffix(s: string, i: nat)
    requires i <= |s|
    ensures Lower(s[i..]) == Lower(s)[i..]
  {
  }

  lemma LowerSnoc(s: string, c: char)
    ensures Lower(s + [c]) == Lower(s) + [LowerChar(c)]
  {
    LowerAppend(s, [c]);
  }

  predicate StartsWith(s: string, prefix: string) {
    |prefix| <= |s| && s[..|prefix|] == prefix
  }

  predicate EndsWith(s: string, suffix: string) {
    |suffix| <= |s| && s[|s| - |suffix|..] == suffix
  }

  /** `char.IsWhiteSpace`: the Unicode White_Space characters. */
  predicate IsWhiteSpace(c: char) {
    || '\U{9}' <= c <= '\U{D}'
    || c == ' '
    || c == '\U{85}'
    || c == '\U{A0}'
    || c == '\U{1680}'
    || '\U{2000}' <= c <= '\U{200A}'
    || c == '\U{2028}'
    || c == '\U{2029}'
    || c == '\U{202F}'
    || c == '\U{205F}'
    || c == '\U{3000}'
  }

  predicate AllWhiteSpace(s: string) {
    forall k :: 0 <= k < |s| ==> IsWhiteSpace(s[k])
  }

  /** Drops the leading white space: what is left is a suffix of `s`
      preceded only by white space, and does not itself start with any. */
  function TrimStart(s: string): (r: string)
    ensures |r| <= |s| && r == s[|s| - |r|..]
    ensures AllWhiteSpace(s[..|s| - |r|])
    ensures |r| == 0 || !IsWhiteSpace(r[0])
    decreases |s|
  {
    if |s| > 0 && IsWhiteSpace(s[0]) then
      var r := TrimStart(s[1..]);
      var n := |s| - |r|;
      assert s[1..][n - 1..] == s[n..];
      assert forall k :: 1 <= k < n ==> s[k] == s[1..][..n - 1][k - 1];
      r
    else s
  }

  /** Drops the trailing white space: what is left is a prefix of `s`
      followed only by white space, and does not itself end with any. */
  function TrimEnd(s: string): (r: string)
    ensures |r| <= |s| && r == s[..|r|]
    ensures AllWhiteSpace(s[|r|..])
    ensures |r| == 0 || !IsWhiteSpace(r[|r| - 1])
    decreases |s|
  {
    if |s| > 0 && IsWhiteSpace(s[|s| - 1]) then
      var r := TrimEnd(s[..|s| - 1]);
      assert s[..|s| - 1][..|r|] == s[..|r|];
      assert forall k :: |r| <= k < |s| - 1 ==> s[k] == s[..|s| - 1][|r|..][k - |r|];
      r
    else s
  }

  /** `s.Trim()`: `TrimStart` then `TrimEnd`. */
  function Trim(s: string): (r: string)
    ensures |r| == 0 || (!IsWhiteSpace(r[0]) && !IsWhiteSpace(r[|r| - 1]))
    ensures forall c :: c in r ==> c in s
  {
    var t := TrimStart(s);
    var r := TrimEnd(t);
    assert r == s[|s| - |t|..][..|r|];
    r
  }

  /** The trim is the slice of `s` that has only white space around it and
      neither starts nor ends with white space. */
  lemma TrimIsSlice(s: string)
    ensures exists i, j :: 0 <= i <= j <= |s| && Trim(s) == s[i..j]
                           && AllWhiteSpace(s[..i]) && AllWhiteSpace(s[j..])
  {
    var t := TrimStart(s);
    var r := TrimEnd(t);
    var i := |s| - |t|;
    var j := i + |r|;
    assert r == s[i..j];
    assert s[j..] == t[|r|..];
  }

  /** A string without surrounding white space is its own trim; in
      particular trimming twice changes nothing. */
  lemma TrimFixedPoint(s: string)
    requires |s| == 0 || (!IsWhiteSpace(s[0]) && !IsWhiteSpace(s[|s| - 1]))
    ensures Trim(s) == s
  {
  }

  lemma TrimIdempotent(s: string)
    ensures Trim(Trim(s)) == Trim(s)
  {
    TrimFixedPoint(Trim(s));
  }

  /** Number of occurrences of `c` in `s`. */
  function Count(s: string, c: char): nat
    decreases |s|
  {
    if |s| == 0 then 0 else (if s[0] == c then 1 else 0) + Count(s[1..], c)
  }

  /** `s.Split(sep)` with no options: one piece per separator plus one, empty
      pieces kept, no piece containing the separator. */
  function Split(s: string, sep: char): (r: seq<string>)
    ensures |r| == Count(s, sep) + 1
    ensures forall k :: 0 <= k < |r| ==> sep !in r[k]
    ensures forall k, c :: 0 <= k < |r| && c in r[k] ==> c in s
    decreases |s|
  {
    if |s| == 0 then [""]
    else
      var rest := Split(s[1..], sep);
      assert forall c :: c in s[1..] ==> c in s;
      if s[0] == sep then [""] + rest
      else [[s[0]] + rest[0]] + rest[1..]
  }

  /** `string.Join(sep, parts)`. */
  function Join(parts: seq<string>, sep: char): string
    decreases |parts|
  {
    if |parts| == 0 then ""
    else if |parts| == 1 then parts[0]
    else parts[0] + [sep] + Join(parts[1..], sep)
  }

  lemma JoinCons(head: string, tail: seq<string>, sep: char)
    requires |tail| > 0
    ensures Join([head] + tail, sep) == head + [sep] + Join(tail, sep)
  {
    assert ([head] + tail)[1..] == tail;
  }

  lemma JoinExtendFirst(c: char, parts: seq<string>, sep: char)
    requires |parts| > 0
    ensures Join([[c] + parts[0]] + parts[1..], sep) == [c] + Join(parts, sep)
  {
    if |parts| > 1 {
      JoinCons([c] + parts[0], parts[1..], sep);
    }
  }

  /** Splitting loses nothing: joining the pieces back with the separator
      gives the original string. */
  lemma {:induction false} SplitJoin(s: string, sep: char)
    ensures Join(Split(s, sep), sep) == s
    decreases |s|
  {
    if |s| > 0 {
      var rest := Split(s[1..], sep);
      SplitJoin(s[1..], sep);
      if s[0] == sep {
        JoinCons("", rest, sep);
        assert [s[0]] + s[1..] == s;
      } else {
        JoinExtendFirst(s[0], rest, sep);
        assert [s[0]] + s[1..] == s;
      }
    }
  }

  /** A piece without the separator is split into itself. */
  lemma {:induction false} SplitPlain(s: string, sep: char)
    requires sep !in s
    ensures Split(s, sep) == [s]
    decreases |s|
  {
    if |s| > 0 {
      assert forall c :: c in s[1..] ==> c in s;
      SplitPlain(s[1..], sep);
      assert [s[0]] + s[1..] == s;
    }
  }

  /** A separator after a separator-free prefix ends the first piece. */
  lemma {:induction false} SplitAtSeparator(a: string, b: string, sep: char)
    requires sep !in a
    ensures Split(a + [sep] + b, sep) == [a] + Split(b, sep)
    decreases |a|
  {
    var s := a + [sep] + b;
    if |a| == 0 {
      assert s[1..] == b;
    } else {
      assert s[1..] == a[1..] + [sep] + b;
      assert forall c :: c in a[1..] ==> c in a;
      SplitAtSeparator(a[1..], b, sep);
      assert [a[0]] + a[1..] == a;
    }
  }

  /** Joining separator-free pieces and splitting again gives the pieces
      back: the other half of the round trip. */
  lemma {:induction false} JoinSplit(parts: seq<string>, sep: char)
    requires |parts| > 0
    requires forall k :: 0 <= k < |parts| ==> sep !in parts[k]
    ensures Split(Join(parts, sep), sep) == parts
    decreases |parts|
  {
    if |parts| == 1 {
      SplitPlain(parts[0], sep);
    } else {
      JoinSplit(parts[1..], sep);
      SplitAtSeparator(parts[0], Join(parts[1..], sep), sep);
      assert [parts[0]] + parts[1..] == parts;
    }
  }

  /** Concatenation of a sequence of strings. */
  function Concat(parts: seq<string>): string
    decreases |parts|
  {
    if |parts| == 0 then "" else parts[0] + Concat(parts[1..])
  }
}
